=== FILE: README.md ===
# YouTube caption extractor: URL rules, server routes and client workflow

A Dafny model of the decision logic of a small caption-extraction
application: a FastAPI server (`app/`) and a browser client (`docs/script.js`).

- **URL grammar** (`UrlGrammar`, `ServerUrl`, `ClientUrl`). The shape regex
  `^(https?://)?(www\.|m\.)?(youtube\.com|youtu\.be)/.+$` is matched
  case-insensitively. It is written out as a group-by-group matcher and
  proved equal to a declarative description of the accepted strings.
  - The matcher takes a `Dialect`, because Python's `re` and JavaScript's
    `RegExp` read the same pattern differently:
    - Python's case folding lets U+017F (long s) match `s`;
    - the characters `.` refuses differ between the two;
    - Python's `$` also matches before a final newline.
  - The id patterns are case-sensitive leftmost searches that capture a
    maximal run of at least six `[A-Za-z0-9_-]` characters.
  - The server tries `youtu.be/`, then a bare `v=`, then `/embed/`. The client
    tries `youtu.be/`, then `[?&]v=`.
- **Relations between the two sides** (`UrlRelations`, `UrlExamples`).
  - Every URL the client sends passes server validation.
  - For a `youtu.be/` URL, both sides extract the same id.
  - Concrete URLs show each difference between the two sides.
- **Transcript text** (`Captions`). Without an exception, the transcript is
  the snippet texts joined by single spaces. An exception message is
  classified into one of three error messages.
- **Routes** (`Routes`). `/validate`, `/process`, `/extract` and
  `/gpt-summarize` are functions from a request to a response or an HTTP
  error. The transcript library and the summary service are parameters.
- **Quiz placeholder** (`Quiz`). Four fixed questions, cut with Python's
  `[:n]` slice.
- **Client workflow** (`ClientWorkflow`). The page is a state record:
  - the held captions, id and video data;
  - the visible sections, the button state and the shown texts.

  Each handler is a pure transition. The two requests of an extraction are
  inputs, given as the outcomes they settle to.
- **End to end** (`EndToEnd`). A click whose captions request is answered by
  the `/extract` route.

Two behaviours of the code shape the model:

- `fetchVideoInfo` catches every failure and returns a fallback record, so it
  never rejects. The video section is therefore shown after every dispatched
  click, and the `status === "fulfilled"` test on its outcome always passes.
- The client's player shows the id the client extracted. The held id is the
  one the server returned. The two can differ (`EndToEnd.SessionIdsDiverge`).

## Model

| member | source | states |
|---|---|---|
| UrlGrammar.MatchesShapeSpec | app/services/url.py:5-9 | The engine-style matcher accepts a URL exactly when it is an optional scheme, an optional `www.`/`m.`, a host and `/`, all up to the dialect's case folding, followed by a non-empty tail of characters `.` accepts. |
| UrlGrammar.Search | app/services/url.py:18-20 | The result is the id captured at the leftmost position where the prefix is followed by at least six id characters. It is None exactly when no such position exists. The id has at least six characters, all from `[A-Za-z0-9_-]`. |
| UrlGrammar.LeftmostUnique | app/services/url.py:18-20 | A search has at most one captured id. |
| ServerUrl.YoutubeRegexMatches | app/services/url.py:5-9 | `YOUTUBE_REGEX.match` succeeds exactly for the URLs of the shape, read with Python's folding, `.` and `$`. |
| ServerUrl.ParseVideoId | app/services/url.py:16-30 | `youtu.be/` wins whenever it matches. Otherwise a bare `v=` wins, then `/embed/`. Each result is that pattern's leftmost id. None exactly when no pattern matches. |
| ServerUrl.ValidateYoutubeUrl | app/services/url.py:12-13 | True exactly when the shape holds and one of the three id patterns matches. Then `parse_video_id` returns an id. |
| ClientUrl.IsValidYouTubeUrl | docs/script.js:78-82 | The regex test succeeds exactly for the URLs of the shape, read with JavaScript's folding, `.` and `$`. No id is asked for. |
| ClientUrl.ExtractVideoId | docs/script.js:85-93 | `youtu.be/` wins whenever it matches, then `[?&]v=`. There is no embed fallback. null exactly when neither pattern matches. |
| UrlRelations.ClientShapeImpliesServerShape | docs/script.js:79-81 | Every URL the client's regex accepts is accepted by the server's regex. |
| UrlRelations.QueryWatchIsBareWatch | docs/script.js:89 | A client `[?&]v=` match at `i` is a server `v=` match at `i + 1`. |
| UrlRelations.ClientIdImpliesServerId | docs/script.js:85-93 | When the client finds an id, the server finds one too. |
| UrlRelations.ShortLinkIdsAgree | docs/script.js:86-87 | When `youtu.be/<id>` occurs, client and server extract the same id. |
| UrlRelations.ClientGatesImplyServerValid | app/services/url.py:12-13 | A URL that passes both client gates passes server validation. |
| UrlRelations.EmbedOnlyOnServer | app/services/url.py:26-28 | `youtube.com/embed/abcdef` has the shape on both sides. Only the server finds an id, so it is valid on the server and refused by the client. |
| UrlRelations.DevParamOnlyOnServer | app/services/url.py:22-24 | `?dev=abcdef` gives the server the id `abcdef`. The client's `[?&]v=` finds none. |
| UrlRelations.UpperCaseShortLinkFailsValidation | app/services/url.py:12-20 | `YOUTU.BE/abcdef` has the case-insensitive shape, but the case-sensitive id patterns find nothing, so validation fails. |
| UrlRelations.IdsDiverge | docs/script.js:89-90 | In `youtube.com/watch?dev=aaaaaa&v=bbbbbb` the server picks `aaaaaa` and the client picks `bbbbbb`. |
| UrlRelations.LongSOnlyOnServer | app/services/url.py:7-8 | A scheme written with U+017F in place of `s` has the server's shape but not the client's. |
| UrlRelations.TrailingNewlineOnlyOnServer | app/services/url.py:7 | A URL that ends in a newline has the server's shape but not the client's. |
| UrlExamples.ShortLinkExample | docs/script.js:85-87 | `https://youtu.be/ABC123xyz` has the shape, and both sides extract `ABC123xyz`. |
| UrlExamples.WatchExample | docs/script.js:89-90 | In `https://www.youtube.com/watch?v=ABC123xyz&t=10`, the client's id stops at `&`. |
| UrlExamples.NoIdExample | docs/script.js:85-93 | `https://youtube.com/watch?foo=bar` has the shape. Neither side finds an id, so server validation fails. |
| Text.Trim | docs/script.js:68 | `trim()` removes JavaScript white space from both ends, and only from the ends. What is left neither starts nor ends with white space. |
| Text.Utf16Length | docs/script.js:222 | JavaScript's `length` lies between the number of characters and twice that. |
| Text.Utf16LengthBmp | docs/script.js:222 | Without characters beyond the Basic Multilingual Plane, JavaScript's `length` is the character count. |
| Captions.ClassifyFetchError | app/services/captions.py:25-34 | Every raised message starts with "Error: ". The message is the captions-disabled one exactly when the text says `TranscriptsDisabled` or `disabled` in any case. It is the not-found one exactly when it is not that and says `NoTranscriptFound` or `not found`. Otherwise it is the generic head followed by the original text, verbatim. |
| Captions.FetchTranscriptText | app/services/captions.py:8-34 | A transcript results exactly when the library yields one. An exception gives its classified message. Every error starts with "Error: ". |
| Captions.EmptyTranscript | app/services/captions.py:22-23 | No snippets give the empty string. |
| Captions.TranscriptLayout | app/services/captions.py:12-23 | Each snippet's text sits at its offset in the transcript. Every text except the last is followed by one space. The length is exactly that of the texts and the separators. |
| Captions.TranscriptSplitsBack | app/services/captions.py:22 | When no text contains a space, splitting the transcript on spaces gives back the texts in order. |
| Captions.DisabledNameSubsumed | app/services/captions.py:27 | A message naming `TranscriptsDisabled` already says `disabled` once lower-cased. |
| Captions.NotFoundNameNeeded | app/services/captions.py:31-32 | The bare name `NoTranscriptFound` does not contain `not found`. Only the name test sends it to the not-found message. |
| Captions.DisabledFirst | app/services/captions.py:27-32 | A message that says both disabled and not found gets the disabled message. |
| Quiz.SliceStop | app/services/quiz.py:8 | Python's slice bound never exceeds the list length. |
| Quiz.GenerateQuizQuestions | app/services/quiz.py:1-8 | The result is a prefix of the four questions, in order. For `n >= 0` its length is `min(n, 4)`. For `n < 0` its length is `max(4 + n, 0)`. |
| Quiz.DefaultGivesAll | app/services/quiz.py:1-8 | The default count gives all four questions. |
| Quiz.IgnoresSummary | app/services/quiz.py:1-8 | The result does not depend on the summary. |
| Quiz.CountsNest | app/services/quiz.py:3-8 | For two counts of one sign, the smaller count's questions are a prefix of the larger count's. |
| Routes.Validate | app/api/routes/process.py:21-26 | `valid` holds exactly when the shape holds and an id pattern matches. `reason` is absent exactly when valid, and "Invalid YouTube URL" otherwise. |
| Routes.Admit | app/api/routes/process.py:31-37 | Every refusal is 422 "Invalid YouTube URL", given exactly for invalid URLs. The "Could not parse video id" branch never fires. An admitted URL yields its parsed id. |
| Routes.CaptionsThenSummary | app/api/routes/process.py:39-41 | Succeeds exactly when the transcript and its summary both succeed. A failure carries the first failing step's message. |
| Routes.ExtractCaptions | app/api/routes/process.py:54-76 | An invalid URL gets 422 "Invalid YouTube URL". Any other failure is a 400 whose detail is the fetch or summary message. A success has status "success", the parsed id, the unchanged transcript and its summary. |
| Routes.ProcessVideo | app/api/routes/process.py:29-51 | The same gating and error mapping as `/extract`. A success carries the parsed id, a summary of the fetched transcript, and all four quiz questions. |
| Routes.RefusedBeforeFetch | app/api/routes/process.py:32-33 | For an invalid URL, the answer does not depend on the transcript library or the summary service. |
| Routes.RoutesAgree | app/api/routes/process.py:29-76 | `/extract` and `/process` succeed together, fail with the same error, and agree on the id and the summary. |
| Routes.TranscriptFailureDetail | app/api/routes/process.py:75-76 | A transcript failure for a valid URL is a 400 whose detail is the classified message, starting with "Error: ". |
| Routes.GptSummarize | app/api/routes/process.py:79-97 | Status "success" and model "placeholder-v1". The caption length and whether the prompt is truthy can be read back from the summary text. |
| Routes.ReadBack | app/api/routes/process.py:87-93 | The placeholder summary decodes to the length and the prompt flag written into it. |
| Routes.LeadingZeroRejected | app/api/routes/process.py:90 | A length written with a leading zero, which `str(len)` never writes, does not decode. |
| ClientWorkflow.Initial | docs/script.js:33-36 | The page starts with no captions, no id and no video data. The text area agrees with the held captions. |
| ClientWorkflow.ValidateUrlInput | docs/script.js:67-75 | The button is disabled exactly when the trimmed input is empty or lacks the shape. The error border shows exactly when it is non-empty and lacks the shape. Nothing else changes. |
| ClientWorkflow.ShowError | docs/script.js:230-233 | The error section shows the message. Nothing else changes. |
| ClientWorkflow.HideAllSections | docs/script.js:236-241 | All four sections are hidden. Nothing else changes. |
| ClientWorkflow.ShowLoading | docs/script.js:192-197 | The loading section appears, and the button is disabled with the spinner label. Nothing else changes. |
| ClientWorkflow.HideLoading | docs/script.js:200-205 | The loading section goes, and the button is enabled with its plain label. Nothing else changes. |
| ClientWorkflow.ShowVideoInfo | docs/script.js:208-216 | The video section shows the title and a "by <author>" line, and the player URL ends in the given id. Nothing else changes. |
| ClientWorkflow.ShowResults | docs/script.js:219-227 | The result section shows the captions and the id. The shown length is the UTF-16 length. Nothing else changes. |
| ClientWorkflow.FetchVideoInfo | docs/script.js:96-122 | An ok oEmbed answer gives its title, author and thumbnail. Any failure gives "YouTube Video <id>", "Unknown Channel" and no thumbnail. The duration is always null. |
| ClientWorkflow.ErrorMessage | docs/script.js:176-185 | A `TypeError` mentioning `fetch` shows the connection message. Any other error shows its message, or the stock message when that is empty. The text is never empty. |
| ClientWorkflow.ThrownError | docs/script.js:166-175 | A non-ok response throws an `Error` whose message is the `detail`, or "Failed to extract captions" when it is falsy. A rejection or unreadable body rethrows its own error. |
| ClientWorkflow.Gate | docs/script.js:126-137 | A click is stopped exactly when the trimmed input is empty, lacks the shape, or has no client id. The first two give "Please enter a valid YouTube URL", the last "Could not extract video ID from URL". A dispatched click carries the client's id. |
| ClientWorkflow.ExtractCaptions | docs/script.js:125-189 | A click the gates stop shows the gate's message in the error section and keeps the held captions, id and video data. A dispatched click ends with loading hidden, the button enabled and the video section showing. The result section shows exactly when the captions request succeeded, the error section exactly otherwise. A success holds the body's captions and id. A failure keeps the old ones and shows the thrown error's message. |
| ClientWorkflow.Step | docs/script.js:45-64 | Each event runs its handler: typing (`input`), a click or Enter, Escape (script.js:330-341) and going offline (script.js:367-369). Only a click changes the held captions, id and video data. Typing changes only the field and its feedback. Escape hides every section. Going offline shows the no-connection message. |
| ClientWorkflow.Escape | docs/script.js:338-341 | Escape hides every section and keeps the held captions and id. |
| ClientWorkflow.CopyCaptions | docs/script.js:244-271 | Nothing is copied exactly when there are no captions, or when both the clipboard API and the `execCommand` fallback fail. Otherwise the clipboard gets the held captions, or the text area's content when only the fallback works. |
| ClientWorkflow.DownloadCaptions | docs/script.js:275-296 | Nothing is saved exactly when there are no captions. Otherwise the file holds the captions, and its name reads back as the held id, or `unknown` when there is none. |
| ClientWorkflow.FileNameRoundTrip | docs/script.js:283 | The id is recovered from `youtube-captions-<id>.txt`. |
| ClientWorkflow.GateFailureFrame | docs/script.js:128-137 | A stopped click shows one of the two gate messages. It hides no section, does not enter loading, and keeps the held captions, id, video data and button state. |
| ClientWorkflow.DispatchCleanup | docs/script.js:139-188 | After a dispatched click: loading is hidden and the button is enabled again. The video section shows the client's id. The result section shows exactly when the request succeeded, and the error section exactly otherwise. |
| ClientWorkflow.SuccessStoresBody | docs/script.js:166-169 | A success holds and shows the captions and the id of the same response body. |
| ClientWorkflow.FailureKeepsCaptions | docs/script.js:170-185 | Any failed request keeps the held captions and id and shows a non-empty error. |
| ClientWorkflow.NotOkShowsDetail | docs/script.js:170-171 | A non-ok response shows its `detail`, or "Failed to extract captions". |
| ClientWorkflow.RejectionMessage | docs/script.js:179-185 | A rejected request shows the connection message for a `TypeError` mentioning `fetch`. Otherwise it shows its own message, or the stock one when that is empty. |
| ClientWorkflow.StepSynced | docs/script.js:167-169 | Every handler keeps the text area equal to the held captions. |
| ClientWorkflow.RunSynced | docs/script.js:167-169 | Every session from a synced page stays synced. |
| ClientWorkflow.CopyCopiesCaptions | docs/script.js:244-264 | From the loaded page, after any events, copy puts the held captions on the clipboard whenever one of its two paths succeeds, and nothing when there are no captions or both paths fail. |
| ClientWorkflow.DownloadAfterSuccess | docs/script.js:275-283 | After a successful extraction, the download holds those captions and is named after the id the server returned. |
| EndToEnd.AsApiOutcome | docs/script.js:162-172 | The client reads a route success as a success with the same captions and id. It reads a route error as a non-ok response carrying the detail. |
| EndToEnd.NoInvalidUrlAnswer | app/api/routes/process.py:58-59 | A request the client sends is never refused with 422. Any error it gets is a 400. |
| EndToEnd.SessionIds | docs/script.js:158-168 | After a successful session, the held id is the server's and the player shows the client's. The two agree for a `youtu.be/` URL. |
| EndToEnd.ServerReportsTranscriptFailure | app/api/routes/process.py:75-76 | For a URL the client sends, a transcript failure reaches the client as a non-ok response carrying the classified message. |
| EndToEnd.TranscriptFailureShown | docs/script.js:170-171 | A transcript failure is shown on the page as the server's classified message, starting with "Error: ". The error section is visible and the result section is not. |
| EndToEnd.SessionIdsDiverge | docs/script.js:211 | For `youtube.com/watch?dev=aaaaaa&v=bbbbbb`, a successful session holds `aaaaaa` while the player embeds `bbbbbb`. |

## Left out

- DOM plumbing. The following are not modelled:
  - element lookup and event-listener registration;
  - `scrollIntoView`, `focus` and the innerHTML markup;
  - the demo button and `loadDemoVideo`.

  Sections, the button state and the shown texts are plain fields.
- Timers. `showTemporaryMessage`, the copy-button label revert, `debounce`
  and the performance logger are not modelled, because they only change
  labels after a delay.
- The `online` handler, which only logs. The `offline` handler is the
  `WentOffline` event.
- `CONFIG.API_BASE_URL`: the request URL does not affect any decision
  modelled here.
- I/O is not modelled; each call's result is an input instead:
  - `fetch`, `Promise.allSettled`, `response.json()`, the clipboard API,
    `execCommand`, Blob and object URLs;
  - the transcript library (`ytt_api.fetch`) and `asyncio.to_thread`;
  - `generate_three_sentence_summary` (not part of this model).
- `fetch_captions_sync` and `fetch_captions` are left out, because they only
  call `_fetch_transcript_text`.
- The Escape key also focuses the URL field. That side of it is not modelled.
- Concurrency: two clicks overlapping while a request is in flight. An
  extraction is one atomic transition.
- Pydantic's `HttpUrl` parsing of `youtube_url` (`app/schemas/process.py`).
  The routes take the URL as a plain string. The end-to-end lemmas assume it
  reaches the route exactly as the client trimmed it. The real request model
  refuses scheme-less URLs with its own 422, and it may normalise the URL
  before the route sees it.
- A request body the request model rejects. Its 422 carries a `detail` list,
  not a string. The client would show that list's string form.
- JSON fields that are absent (`undefined` in the client) are not modelled.
  So are an error whose `message` is not a string, and a `detail` that is
  present but not a string.
- Captions.SaysDisabled: Python's `str.lower()` is modelled as ASCII
  lower-casing. The two agree on whether the result contains `disabled` or
  `not found` for ordinary text. Characters whose full Unicode lower case
  contains ASCII letters (U+0130 becomes `i` plus a combining dot) are not
  modelled.
- ClientWorkflow.CopyCaptions: the fallback copies the text area's current
  value. The model has no event for the user editing the text area, so that
  value always equals the held captions (`ClientWorkflow.RunSynced`). The
  page markup, which would say whether the area is read-only, is not part of
  this model.
- ClientWorkflow.ShowResults: the length is shown as a number, not through
  `toLocaleString`'s grouping separators.
- The `except` clause of `gpt_summarize` is not modelled: nothing in its
  `try` block can raise.
- Snippet `start` and `duration` are carried in `Captions.Snippet` but not
  modelled further. The route never uses them.

=== FILE: captions.dfy ===
/** Transcript text for a video (app/services/captions.py,
    `_fetch_transcript_text`): the snippet texts joined by single spaces, or
    one of three error messages chosen from the text of the library's
    exception. The transcript library itself is not modelled; its outcome for
    a video is an input. */
module Captions {
  import opened Outcomes
  import opened Text

  /** One timed line of a transcript, as the library yields it. */
  datatype Snippet = Snippet(text: string, start: real, duration: real)

  /** What the library's `fetch(video_id)` does: yield snippets, or raise an
      exception whose `str` is `message`. */
  datatype FetchOutcome = Fetched(snippets: seq<Snippet>) | Raised(message: string)

  /** The head every raised message starts with. */
  const ErrorTag: string := "Error: "
  // Written in pieces: the solver cannot index a literal of this length.
  const DisabledMessage: string := ErrorTag + "This video has captions disabled" + " for third-party access"
  const NotFoundMessage: string := ErrorTag + "No transcripts found for this video"
  const GenericHead: string := ErrorTag + "Could not extract captions - "

  /** The first test: the exception names `TranscriptsDisabled`, or says
      `disabled` in any case. */
  predicate SaysDisabled(message: string) {
    Contains(message, "TranscriptsDisabled") || Contains(AsciiLower(message), "disabled")
  }

  /** The second test: the exception names `NoTranscriptFound`, or says
      `not found` in any case. */
  predicate SaysNotFound(message: string) {
    Contains(message, "NoTranscriptFound") || Contains(AsciiLower(message), "not found")
  }

  /** The message the `except` branch raises for an exception whose text is
      `message`. The disabled test comes first, then the not-found test, and
      anything else is passed on verbatim after a fixed head. */
  function ClassifyFetchError(message: string): (r: string)
    ensures StartsWith(r, ErrorTag)
    ensures r == DisabledMessage <==> SaysDisabled(message)
    ensures r == NotFoundMessage <==> !SaysDisabled(message) && SaysNotFound(message)
    ensures r != DisabledMessage && r != NotFoundMessage ==>
      StartsWith(r, GenericHead) && r[|GenericHead|..] == message
  {
    MessagesDiffer(message);
    if SaysDisabled(message) then DisabledMessage
    else if SaysNotFound(message) then NotFoundMessage
    else GenericHead + message
  }

  /** The three messages differ right after the tag, so no generic message
      can pass for one of the fixed ones. */
  lemma MessagesDiffer(message: string)
    ensures DisabledMessage != NotFoundMessage
    ensures GenericHead + message != DisabledMessage
    ensures GenericHead + message != NotFoundMessage
    ensures StartsWith(DisabledMessage, ErrorTag) && StartsWith(NotFoundMessage, ErrorTag)
    ensures StartsWith(GenericHead + message, ErrorTag)
  {
    assert DisabledMessage[7] == 'T';
    assert NotFoundMessage[7] == 'N';
    assert (GenericHead + message)[7] == 'C';
    assert (GenericHead + message)[..7] == ErrorTag;
  }

  function Texts(snippets: seq<Snippet>): (r: seq<string>)
    ensures |r| == |snippets|
    ensures forall k :: 0 <= k < |r| ==> r[k] == snippets[k].text
  {
    seq(|snippets|, k requires 0 <= k < |snippets| => snippets[k].text)
  }

  /** `_fetch_transcript_text`: the joined transcript, or the classified
      message of the exception it raises. */
  function FetchTranscriptText(outcome: FetchOutcome): (r: Result<string, string>)
    ensures r.Ok? <==> outcome.Fetched?
    ensures outcome.Raised? ==> r.error == ClassifyFetchError(outcome.message)
    ensures r.Err? ==> StartsWith(r.error, ErrorTag)
  {
    match outcome
    case Fetched(snippets) => Ok(Join(Texts(snippets), " "))
    case Raised(message) => Err(ClassifyFetchError(message))
  }

  // ---------------------------------------------------------------------------
  // The transcript text

  /** No snippets, empty transcript. */
  lemma EmptyTranscript()
    ensures FetchTranscriptText(Fetched([])) == Ok("")
  {
  }

  /** Snippet `k`'s text sits at its offset in the transcript, each text but
      the last followed by one space, and the transcript is exactly that long:
      the texts in order with single spaces between them. */
  lemma TranscriptLayout(snippets: seq<Snippet>, k: nat)
    requires k < |snippets|
    ensures var t := FetchTranscriptText(Fetched(snippets)).value;
      && OccursAt(t, snippets[k].text, JoinOffset(Texts(snippets), " ", k))
      && (k + 1 < |snippets| ==> OccursAt(t, " ", JoinOffset(Texts(snippets), " ", k) + |snippets[k].text|))
      && |t| == JoinOffset(Texts(snippets), " ", |snippets| - 1) + |snippets[|snippets| - 1].text|
  {
    var parts := Texts(snippets);
    JoinPiece(parts, " ", k);
    if k + 1 < |snippets| {
      JoinSeparator(parts, " ", k);
    }
    JoinLength(parts, " ");
  }

  /** When no snippet holds a space, splitting the transcript on spaces gives
      back the texts. */
  lemma TranscriptSplitsBack(snippets: seq<Snippet>)
    requires |snippets| >= 1
    requires forall k :: 0 <= k < |snippets| ==> ' ' !in snippets[k].text
    ensures Split(FetchTranscriptText(Fetched(snippets)).value, ' ') == Texts(snippets)
  {
    SplitJoin(Texts(snippets), ' ');
  }

  // ---------------------------------------------------------------------------
  // The error messages

  /** The `TranscriptsDisabled` test adds nothing: the lower-cased name
      already says `disabled`. */
  lemma DisabledNameSubsumed(message: string)
    requires Contains(message, "TranscriptsDisabled")
    ensures Contains(AsciiLower(message), "disabled")
  {
    var i :| 0 <= i <= |message| - 19 && OccursAt(message, "TranscriptsDisabled", i);
    var l := AsciiLower(message);
    AsciiLowerSlice(message, i + 11, i + 19);
    assert message[i + 11..i + 19] == message[i..i + 19][11..19];
    assert "TranscriptsDisabled"[11..19] == "Disabled";
    assert AsciiLower("Disabled") == "disabled";
    assert OccursAt(l, "disabled", i + 11);
  }

  /** The `NoTranscriptFound` test is not redundant: the bare name has no
      space, so only the name test sends it to the not-found message. */
  lemma NotFoundNameNeeded(message: string)
    requires message == "NoTranscriptFound"
    ensures !Contains(AsciiLower(message), "not found")
    ensures !SaysDisabled(message)
    ensures ClassifyFetchError(message) == NotFoundMessage
  {
    var l := AsciiLower(message);
    forall i | 0 <= i <= |l| - 9 ensures !OccursAt(l, "not found", i) {
      assert l[i + 3] != ' ';
      assert l[i..i + 9][3] == l[i + 3];
    }
    forall i | 0 <= i <= |l| - 8 ensures !OccursAt(l, "disabled", i) {
      assert l[i] != 'd';
      assert l[i..i + 8][0] == l[i];
    }
    assert OccursAt(message, "NoTranscriptFound", 0);
  }

  /** A message that says both wins as disabled. */
  lemma DisabledFirst(message: string)
    requires SaysDisabled(message) && SaysNotFound(message)
    ensures ClassifyFetchError(message) == DisabledMessage
  {
  }
}

=== FILE: client_url.dfy ===
/** The browser client's URL rules (docs/script.js, `isValidYouTubeUrl` and
    `extractVideoId`): the same shape as the server, read by the JavaScript
    engine and without asking for an id, and an id search over `youtu.be/`
    and `[?&]v=` only. */
module ClientUrl {
  import opened Outcomes
  import opened UrlGrammar

  /** `isValidYouTubeUrl(url)`: the anchored, case-insensitive shape test. */
  function IsValidYouTubeUrl(url: string): (ok: bool)
    ensures ok <==> ShapeSpec(JavaScript, url)
  {
    MatchesShapeSpec(JavaScript, url);
    MatchesShape(JavaScript, url)
  }

  /** `extractVideoId(url)`: `youtu.be/` first, then `[?&]v=`, else `null`. */
  function ExtractVideoId(url: string): (r: Option<string>)
    ensures Occurs(url, ShortLink) ==> r.Some? && IsLeftmostId(url, ShortLink, r.value)
    ensures !Occurs(url, ShortLink) && Occurs(url, QueryWatch) ==>
      r.Some? && IsLeftmostId(url, QueryWatch, r.value)
    ensures r.None? <==> !Occurs(url, ShortLink) && !Occurs(url, QueryWatch)
    ensures r.Some? ==> |r.value| >= MinIdLen && forall k :: 0 <= k < |r.value| ==> IsIdChar(r.value[k])
  {
    match Search(url, ShortLink)
    case Some(id) => Some(id)
    case None => Search(url, QueryWatch)
  }
}

=== FILE: client_workflow.dfy ===
/** The browser client's extraction workflow (docs/script.js) as a state
    record and pure transitions. The page's module-level variables and the
    parts of the DOM the workflow writes are fields of `Ui`; the two requests
    an extraction makes are inputs, given as the outcome each one settles to. */
module ClientWorkflow {
  import opened Outcomes
  import opened Text
  import opened UrlGrammar
  import opened ClientUrl

  /** `currentVideoData`, as `fetchVideoInfo` builds it. */
  datatype VideoData = VideoData(title: string, author: string, thumbnail: Option<string>, duration: Option<string>)

  /** Which of the four page sections are visible. */
  datatype Sections = Sections(loading: bool, video: bool, result: bool, error: bool)

  /** The extract button's label: the spinner while loading, the plain label otherwise. */
  datatype ButtonLabel = ExtractLabel | ExtractingLabel

  datatype Ui = Ui(
    input: string,                // the URL field's raw value
    inputInvalid: bool,           // the field's border shows the error colour
    buttonDisabled: bool,
    buttonLabel: ButtonLabel,
    sections: Sections,
    errorText: string,
    captions: string,             // currentCaptions
    videoId: string,              // currentVideoId
    videoData: Option<VideoData>, // currentVideoData
    videoTitle: string,
    videoMeta: string,
    embedSrc: string,
    captionsText: string,         // the captions text area
    videoIdText: string,
    captionLength: nat)           // the character count shown, before locale formatting

  /** The page as loaded: empty state, only the input section showing. */
  function Initial(input: string): (u: Ui)
    ensures u.captions == "" && u.videoId == "" && u.videoData.None?
    ensures Synced(u)
  {
    Ui(input, false, false, ExtractLabel, Sections(false, false, false, false), "", "", "", None,
       "", "", "", "", "", 0)
  }

  /** The text area shows the captions held for copy and download. */
  predicate Synced(u: Ui) {
    u.captionsText == u.captions
  }

  const PleaseEnterValid: string := "Please enter a valid YouTube URL"
  const CouldNotExtract: string := "Could not extract video ID from URL"
  const ExtractFailed: string := "Failed to extract captions"
  const UnexpectedError: string := "An unexpected error occurred"
  // Long literals are written in pieces: the solver cannot index one of this length.
  const CannotConnect: string :=
    "Cannot connect to the API server. " + "Please make sure the backend is running on localhost:8000"
  const FallbackAuthor: string := "Unknown Channel"
  const FallbackTitleHead: string := "YouTube Video "
  const EmbedHead: string := "https://www.youtube.com/embed/"
  const VideoIdHead: string := "Video ID: "
  const NoConnection: string := "No internet connection. Please check your network and try again."

  // ---------------------------------------------------------------------------
  // Input feedback

  /** `validateUrlInput`: on every keystroke the border and the button follow
      the trimmed input; nothing else changes. */
  function ValidateUrlInput(u: Ui): (r: Ui)
    ensures r.buttonDisabled <==> Trim(u.input) == [] || !ShapeSpec(JavaScript, Trim(u.input))
    ensures r.inputInvalid <==> Trim(u.input) != [] && !ShapeSpec(JavaScript, Trim(u.input))
    ensures r.(buttonDisabled := u.buttonDisabled, inputInvalid := u.inputInvalid) == u
  {
    var url := Trim(u.input);
    var isValid := url == "" || IsValidYouTubeUrl(url);
    u.(inputInvalid := !isValid, buttonDisabled := url == "" || !isValid)
  }

  // ---------------------------------------------------------------------------
  // The display helpers

  /** `showError`: the message in the error section, which becomes visible. */
  function ShowError(u: Ui, message: string): (r: Ui)
    ensures r.errorText == message && r.sections.error
    ensures r.(errorText := u.errorText, sections := u.sections) == u
    ensures r.sections.(error := u.sections.error) == u.sections
  {
    u.(errorText := message, sections := u.sections.(error := true))
  }

  /** `hideAllSections`. */
  function HideAllSections(u: Ui): (r: Ui)
    ensures !r.sections.loading && !r.sections.video && !r.sections.result && !r.sections.error
    ensures r.(sections := u.sections) == u
  {
    u.(sections := Sections(false, false, false, false))
  }

  /** `showLoading`: the loading section appears and the button is disabled. */
  function ShowLoading(u: Ui): (r: Ui)
    ensures r.sections.loading && r.buttonDisabled && r.buttonLabel == ExtractingLabel
    ensures r.sections.(loading := u.sections.loading) == u.sections
    ensures r.(sections := u.sections, buttonDisabled := u.buttonDisabled, buttonLabel := u.buttonLabel) == u
  {
    u.(sections := u.sections.(loading := true), buttonDisabled := true, buttonLabel := ExtractingLabel)
  }

  /** `hideLoading`: the loading section goes and the button is enabled again. */
  function HideLoading(u: Ui): (r: Ui)
    ensures !r.sections.loading && !r.buttonDisabled && r.buttonLabel == ExtractLabel
    ensures r.sections.(loading := u.sections.loading) == u.sections
    ensures r.(sections := u.sections, buttonDisabled := u.buttonDisabled, buttonLabel := u.buttonLabel) == u
  {
    u.(sections := u.sections.(loading := false), buttonDisabled := false, buttonLabel := ExtractLabel)
  }

  /** `showVideoInfo`: title, `by <author>` and the embedded player for the
      client's own id. */
  function ShowVideoInfo(u: Ui, id: string, data: VideoData): (r: Ui)
    ensures r.sections.video && r.videoTitle == data.title
    ensures r.videoMeta == "by " + data.author
    ensures StartsWith(r.embedSrc, EmbedHead) && r.embedSrc[|EmbedHead|..] == id
    ensures r.sections.(video := u.sections.video) == u.sections
    ensures r.(sections := u.sections, videoTitle := u.videoTitle, videoMeta := u.videoMeta, embedSrc := u.embedSrc) == u
  {
    assert (EmbedHead + id)[..|EmbedHead|] == EmbedHead;
    u.(videoTitle := data.title, videoMeta := "by " + data.author, embedSrc := EmbedHead + id,
       sections := u.sections.(video := true))
  }

  /** `showResults`: the captions in the text area, the id and the length. */
  function ShowResults(u: Ui, captions: string, id: string): (r: Ui)
    ensures r.sections.result && r.captionsText == captions
    ensures StartsWith(r.videoIdText, VideoIdHead) && r.videoIdText[|VideoIdHead|..] == id
    ensures r.captionLength == Utf16Length(captions)
    ensures r.sections.(result := u.sections.result) == u.sections
    ensures r.(sections := u.sections, captionsText := u.captionsText, videoIdText := u.videoIdText,
               captionLength := u.captionLength) == u
  {
    assert (VideoIdHead + id)[..|VideoIdHead|] == VideoIdHead;
    u.(captionsText := captions, videoIdText := VideoIdHead + id, captionLength := Utf16Length(captions),
       sections := u.sections.(result := true))
  }

  // ---------------------------------------------------------------------------
  // The two requests

  /** How the oEmbed request settles: the JSON of an ok response, or any
      failure (a non-ok status, a network error, a body that is not JSON). */
  datatype InfoOutcome = InfoOk(title: string, author: string, thumbnail: Option<string>) | InfoFailed

  /** `fetchVideoInfo`: never rejects; a failure gives the fallback record,
      and the duration is always null. */
  function FetchVideoInfo(id: string, outcome: InfoOutcome): (r: VideoData)
    ensures r.duration.None?
    ensures outcome.InfoOk? ==> r.title == outcome.title && r.author == outcome.author && r.thumbnail == outcome.thumbnail
    ensures outcome.InfoFailed? ==>
      && StartsWith(r.title, FallbackTitleHead) && r.title[|FallbackTitleHead|..] == id
      && r.author == FallbackAuthor && r.thumbnail.None?
  {
    match outcome
    case InfoOk(title, author, thumbnail) => VideoData(title, author, thumbnail, None)
    case InfoFailed =>
      assert (FallbackTitleHead + id)[..|FallbackTitleHead|] == FallbackTitleHead;
      VideoData(FallbackTitleHead + id, FallbackAuthor, None, None)
  }

  /** A JavaScript error value: its `name` and `message`. */
  datatype JsError = JsError(name: string, message: string)

  /** How the `POST /extract` request settles. */
  datatype ApiOutcome =
    | Succeeded(captions: string, videoId: string)  // ok status; the JSON body's `captions` and `video_id`
    | Failed(detail: Option<string>)                 // other status; the JSON body's `detail`, if a string
    | Unreadable(error: JsError)                     // `response.json()` threw
    | Rejected(error: JsError)                       // the request itself rejected

  /** The `catch` block: a `TypeError` mentioning `fetch` means the server
      could not be reached; any other error shows its message, or a stock
      message when that is empty. */
  function ErrorMessage(e: JsError): (m: string)
    ensures m != ""
    ensures e.name == "TypeError" && Contains(e.message, "fetch") ==> m == CannotConnect
    ensures !(e.name == "TypeError" && Contains(e.message, "fetch")) ==>
      m == if e.message == "" then UnexpectedError else e.message
  {
    if e.name == "TypeError" && Contains(e.message, "fetch") then CannotConnect
    else if e.message != "" then e.message
    else UnexpectedError
  }

  /** The error the `try` block throws for a settled captions request that is
      not a success. */
  function ThrownError(api: ApiOutcome): (e: JsError)
    requires !api.Succeeded?
    ensures api.Failed? ==> e.name == "Error" && e.message == (if Truthy(api.detail) then api.detail.value else ExtractFailed)
    ensures !api.Failed? ==> e == api.error
  {
    match api
    case Failed(detail) => JsError("Error", if Truthy(detail) then detail.value else ExtractFailed)
    case Unreadable(error) => error
    case Rejected(error) => error
  }

  // ---------------------------------------------------------------------------
  // `extractCaptions`

  /** The id a click dispatches with, or the message of the gate that stops it. */
  function Gate(input: string): (r: Result<string, string>)
    ensures r.Err? <==> Trim(input) == [] || !ShapeSpec(JavaScript, Trim(input)) || ExtractVideoId(Trim(input)).None?
    ensures r.Err? ==> (r.error == PleaseEnterValid <==> Trim(input) == [] || !ShapeSpec(JavaScript, Trim(input)))
    ensures r.Err? ==> r.error == PleaseEnterValid || r.error == CouldNotExtract
    ensures r.Ok? ==> Some(r.value) == ExtractVideoId(Trim(input)) && |r.value| >= MinIdLen
  {
    var url := Trim(input);
    if url == "" || !IsValidYouTubeUrl(url) then Err(PleaseEnterValid)
    else
      var videoId := ExtractVideoId(url);
      if videoId.None? || videoId.value == "" then Err(CouldNotExtract)
      else Ok(videoId.value)
  }

  /** One run of `extractCaptions`, from the click to the end of the
      `finally` block, given how the two requests settle. A click the gates
      stop only shows the gate's message; a dispatched click always ends with
      loading over, the button enabled and exactly one of the result and
      error sections showing, and only a success replaces what is held. */
  function ExtractCaptions(u: Ui, info: InfoOutcome, api: ApiOutcome): (r: Ui)
    ensures Gate(u.input).Err? ==>
      && r.sections.error && r.errorText == Gate(u.input).error
      && r.sections.(error := u.sections.error) == u.sections
      && r.captions == u.captions && r.videoId == u.videoId && r.videoData == u.videoData
    ensures Gate(u.input).Ok? ==>
      && !r.sections.loading && !r.buttonDisabled && r.sections.video
      && (r.sections.result <==> api.Succeeded?) && (r.sections.error <==> !api.Succeeded?)
    ensures Gate(u.input).Ok? && api.Succeeded? ==> r.captions == api.captions && r.videoId == api.videoId
    ensures Gate(u.input).Ok? && !api.Succeeded? ==>
      r.captions == u.captions && r.videoId == u.videoId && r.errorText == ErrorMessage(ThrownError(api))
  {
    match Gate(u.input)
    case Err(message) => ShowError(u, message)
    case Ok(id) =>
      var loading := ShowLoading(HideAllSections(u));
      var data := FetchVideoInfo(id, info);
      var withInfo := ShowVideoInfo(loading.(videoData := Some(data)), id, data);
      var settled :=
        if api.Succeeded? then
          ShowResults(withInfo.(captions := api.captions, videoId := api.videoId), api.captions, api.videoId)
        else
          ShowError(withInfo, ErrorMessage(ThrownError(api)));
      HideLoading(settled)
  }

  /** `Escape`: every section hidden; the held captions stay. */
  function Escape(u: Ui): (r: Ui)
    ensures !r.sections.loading && !r.sections.video && !r.sections.result && !r.sections.error
    ensures r.captions == u.captions && r.videoId == u.videoId && r.captionsText == u.captionsText
  {
    HideAllSections(u)
  }

  // ---------------------------------------------------------------------------
  // Copy and download

  /** `copyCaptions`: what reaches the clipboard, if anything. The clipboard
      API copies the held captions; when it fails, the fallback selects the
      text area and asks `execCommand("copy")` to copy it, whose own success
      is an input too (its result is ignored, so a failure copies nothing). */
  function CopyCaptions(u: Ui, clipboardWorks: bool, fallbackWorks: bool): (copied: Option<string>)
    ensures copied.None? <==> u.captions == "" || (!clipboardWorks && !fallbackWorks)
    ensures copied.Some? && clipboardWorks ==> copied.value == u.captions
    ensures copied.Some? && !clipboardWorks ==> copied.value == u.captionsText
  {
    if u.captions == "" then None
    else if clipboardWorks then Some(u.captions)
    else if fallbackWorks then Some(u.captionsText)
    else None
  }

  /** A file the browser is asked to save. */
  datatype Download = Download(fileName: string, content: string)

  const FileHead: string := "youtube-captions-"
  const FileTail: string := ".txt"

  /** `downloadCaptions`: the captions as a text file named after the held
      id, or `unknown` when there is none. */
  function DownloadCaptions(u: Ui): (d: Option<Download>)
    ensures d.None? <==> u.captions == ""
    ensures d.Some? ==> d.value.content == u.captions
    ensures d.Some? ==> ReadFileName(d.value.fileName) == Some(if u.videoId == "" then "unknown" else u.videoId)
  {
    if u.captions == "" then None
    else
      var name := FileHead + (if u.videoId == "" then "unknown" else u.videoId) + FileTail;
      FileNameRoundTrip(if u.videoId == "" then "unknown" else u.videoId);
      Some(Download(name, u.captions))
  }

  /** The id part of a download file name. */
  function ReadFileName(name: string): Option<string> {
    if |name| >= |FileHead| + |FileTail| && name[..|FileHead|] == FileHead && name[|name| - |FileTail|..] == FileTail
    then Some(name[|FileHead|..|name| - |FileTail|])
    else None
  }

  lemma FileNameRoundTrip(id: string)
    ensures ReadFileName(FileHead + id + FileTail) == Some(id)
  {
    var name := FileHead + id + FileTail;
    assert name[..|FileHead|] == FileHead;
    assert name[|name| - |FileTail|..] == FileTail;
    assert name[|FileHead|..|name| - |FileTail|] == id;
  }

  // ---------------------------------------------------------------------------
  // What one run of `extractCaptions` does

  /** A click the gates stop shows one of the two gate messages and touches
      nothing else: no section is hidden, loading is not entered, and the held
      captions, id and video data stay. */
  lemma GateFailureFrame(u: Ui, info: InfoOutcome, api: ApiOutcome)
    requires Gate(u.input).Err?
    ensures var r := ExtractCaptions(u, info, api);
      && r.sections.error
      && (r.errorText == PleaseEnterValid || r.errorText == CouldNotExtract)
      && r.sections.(error := u.sections.error) == u.sections
      && r.captions == u.captions && r.videoId == u.videoId && r.videoData == u.videoData
      && r.buttonDisabled == u.buttonDisabled && r.captionsText == u.captionsText
  {
  }

  /** A dispatched click always ends cleaned up: loading hidden, the button
      enabled, the video section showing the client's id, and exactly one of
      the result and error sections visible. */
  lemma DispatchCleanup(u: Ui, info: InfoOutcome, api: ApiOutcome)
    requires Gate(u.input).Ok?
    ensures var r := ExtractCaptions(u, info, api);
      && !r.sections.loading && !r.buttonDisabled && r.buttonLabel == ExtractLabel
      && r.sections.video
      && r.videoData == Some(FetchVideoInfo(Gate(u.input).value, info))
      && r.embedSrc[|EmbedHead|..] == Gate(u.input).value
      && (r.sections.result <==> !r.sections.error)
      && (r.sections.result <==> api.Succeeded?)
  {
  }

  /** A success stores the captions and the id from the same response body,
      and shows those captions. */
  lemma SuccessStoresBody(u: Ui, info: InfoOutcome, api: ApiOutcome)
    requires Gate(u.input).Ok? && api.Succeeded?
    ensures var r := ExtractCaptions(u, info, api);
      && r.captions == api.captions && r.videoId == api.videoId
      && r.captionsText == api.captions
      && r.videoIdText[|VideoIdHead|..] == api.videoId
  {
  }

  /** Any other outcome shows an error and keeps what was held before. */
  lemma FailureKeepsCaptions(u: Ui, info: InfoOutcome, api: ApiOutcome)
    requires Gate(u.input).Ok? && !api.Succeeded?
    ensures var r := ExtractCaptions(u, info, api);
      && r.captions == u.captions && r.videoId == u.videoId && r.captionsText == u.captionsText
      && r.errorText == ErrorMessage(ThrownError(api)) && r.errorText != ""
  {
  }

  /** A non-ok response shows the server's `detail`, or the stock message when
      it has none; never the connection message. */
  lemma NotOkShowsDetail(u: Ui, info: InfoOutcome, detail: Option<string>)
    requires Gate(u.input).Ok?
    ensures ExtractCaptions(u, info, Failed(detail)).errorText ==
      if Truthy(detail) then detail.value else ExtractFailed
  {
    var api := Failed(detail);
    FailureKeepsCaptions(u, info, api);
    var m := if Truthy(detail) then detail.value else ExtractFailed;
    assert ThrownError(api) == JsError("Error", m);
    assert m != "";
    assert ErrorMessage(JsError("Error", m)) == m;
  }

  /** A rejected request shows the connection message when it is a
      `TypeError` that mentions `fetch`, and otherwise its own message, or the
      stock one when that is empty. */
  lemma RejectionMessage(u: Ui, info: InfoOutcome, e: JsError)
    requires Gate(u.input).Ok?
    ensures var m := ExtractCaptions(u, info, Rejected(e)).errorText;
      && (e.name == "TypeError" && Contains(e.message, "fetch") ==> m == CannotConnect)
      && (!(e.name == "TypeError" && Contains(e.message, "fetch")) ==>
            m == if e.message == "" then UnexpectedError else e.message)
  {
    FailureKeepsCaptions(u, info, Rejected(e));
  }

  // ---------------------------------------------------------------------------
  // Sessions: every state the page reaches

  /** What can happen to the page: the user types into the field, clicks
      extract or presses Ctrl/Cmd+Enter (the two requests then settle as
      given), or presses Escape; or the browser goes offline. */
  datatype Event = Typed(input: string) | Clicked(info: InfoOutcome, api: ApiOutcome) | EscapePressed | WentOffline

  /** The handler each event runs. Only a click can change the held
      captions and id; typing changes only the field and its feedback. */
  function Step(u: Ui, e: Event): (r: Ui)
    ensures !e.Clicked? ==> r.captions == u.captions && r.videoId == u.videoId && r.videoData == u.videoData
    ensures e.Typed? ==> r.input == e.input && r.sections == u.sections && r.errorText == u.errorText
    ensures e.EscapePressed? ==> !r.sections.loading && !r.sections.video && !r.sections.result && !r.sections.error
    ensures e.WentOffline? ==> r.sections.error && r.errorText == NoConnection
  {
    match e
    case Typed(input) => ValidateUrlInput(u.(input := input))
    case Clicked(info, api) => ExtractCaptions(u, info, api)
    case EscapePressed => Escape(u)
    case WentOffline => ShowError(u, NoConnection)
  }

  function Run(u: Ui, events: seq<Event>): Ui
    decreases |events|
  {
    if events == [] then u else Run(Step(u, events[0]), events[1..])
  }

  /** Every step keeps the text area equal to the held captions. */
  lemma StepSynced(u: Ui, e: Event)
    requires Synced(u)
    ensures Synced(Step(u, e))
  {
    match e
    case Typed(input) =>
    case Clicked(info, api) =>
      if Gate(u.input).Ok? && !api.Succeeded? {
        FailureKeepsCaptions(u, info, api);
      }
    case EscapePressed =>
    case WentOffline =>
  }

  /** So does every session from a synced state. */
  lemma {:induction false} RunSynced(u: Ui, events: seq<Event>)
    requires Synced(u)
    ensures Synced(Run(u, events))
    decreases |events|
  {
    if events != [] {
      StepSynced(u, events[0]);
      RunSynced(Step(u, events[0]), events[1..]);
    }
  }

  /** Hence, from the loaded page, whichever of the two copy paths succeeds
      puts the held captions on the clipboard. */
  lemma CopyCopiesCaptions(input: string, events: seq<Event>, clipboardWorks: bool, fallbackWorks: bool)
    ensures var u := Run(Initial(input), events);
      CopyCaptions(u, clipboardWorks, fallbackWorks) ==
        if u.captions == "" || (!clipboardWorks && !fallbackWorks) then None else Some(u.captions)
  {
    RunSynced(Initial(input), events);
  }

  /** After a successful extraction, a download saves those captions under
      the id the server returned. */
  lemma DownloadAfterSuccess(u: Ui, info: InfoOutcome, captions: string, videoId: string)
    requires Gate(u.input).Ok? && captions != ""
    ensures var d := DownloadCaptions(ExtractCaptions(u, info, Succeeded(captions, videoId)));
      && d.Some? && d.value.content == captions
      && ReadFileName(d.value.fileName) == Some(if videoId == "" then "unknown" else videoId)
  {
    SuccessStoresBody(u, info, Succeeded(captions, videoId));
  }
}

=== FILE: end_to_end.dfy ===
/** The client and the server together: a click whose captions request is
    answered by the `/extract` route, with the URL reaching the route as the
    client sent it. */
module EndToEnd {
  import opened Outcomes
  import opened Text
  import opened UrlGrammar
  import opened ServerUrl
  import opened ClientUrl
  import opened UrlRelations
  import opened Captions
  import Routes
  import opened ClientWorkflow

  /** How the client reads the route's answer: a success body with `captions`
      and `video_id`, or an error status whose body carries `detail`. */
  function AsApiOutcome(r: Result<Routes.SummarizeResponse, Routes.HttpError>): (o: ApiOutcome)
    ensures r.Ok? <==> o.Succeeded?
    ensures r.Ok? ==> o.captions == r.value.captions && o.videoId == r.value.videoId
    ensures r.Err? ==> o == Failed(Some(r.error.detail))
  {
    match r
    case Ok(body) => Succeeded(body.captions, body.videoId)
    case Err(e) => Failed(Some(e.detail))
  }

  /** One click, with the server answering the captions request. */
  function Session(u: Ui, info: InfoOutcome, transcripts: Routes.Transcripts, summarize: Routes.Summarizer): Ui {
    ExtractCaptions(u, info, AsApiOutcome(Routes.ExtractCaptions(Trim(u.input), transcripts, summarize)))
  }

  /** A request the client sends is never refused as an invalid URL. */
  lemma NoInvalidUrlAnswer(u: Ui, transcripts: Routes.Transcripts, summarize: Routes.Summarizer)
    requires Gate(u.input).Ok?
    ensures var r := Routes.ExtractCaptions(Trim(u.input), transcripts, summarize);
      r.Err? ==> r.error.status == 400
  {
    ClientGatesImplyServerValid(Trim(u.input));
  }

  /** After a successful session the client holds the server's id, while the
      player shows the client's own; for a short link the two are the same. */
  lemma SessionIds(u: Ui, info: InfoOutcome, transcripts: Routes.Transcripts, summarize: Routes.Summarizer)
    requires Gate(u.input).Ok?
    requires Routes.ExtractCaptions(Trim(u.input), transcripts, summarize).Ok?
    ensures var r := Session(u, info, transcripts, summarize);
      && Some(r.videoId) == ParseVideoId(Trim(u.input))
      && Some(r.embedSrc[|EmbedHead|..]) == ExtractVideoId(Trim(u.input))
      && (Occurs(Trim(u.input), ShortLink) ==> r.embedSrc[|EmbedHead|..] == r.videoId)
  {
    var api := AsApiOutcome(Routes.ExtractCaptions(Trim(u.input), transcripts, summarize));
    SuccessStoresBody(u, info, api);
    DispatchCleanup(u, info, api);
    if Occurs(Trim(u.input), ShortLink) {
      ShortLinkIdsAgree(Trim(u.input));
    }
  }

  /** A transcript failure reaches the page as the server's classified
      message. */
  lemma TranscriptFailureShown(u: Ui, info: InfoOutcome, transcripts: Routes.Transcripts, summarize: Routes.Summarizer)
    requires Gate(u.input).Ok?
    requires ParseVideoId(Trim(u.input)).Some? && transcripts(ParseVideoId(Trim(u.input)).value).Raised?
    ensures var r := Session(u, info, transcripts, summarize);
      && r.errorText == ClassifyFetchError(transcripts(ParseVideoId(Trim(u.input)).value).message)
      && StartsWith(r.errorText, ErrorTag)
      && r.sections.error && !r.sections.result
  {
    var url := Trim(u.input);
    var message := transcripts(ParseVideoId(url).value).message;
    ServerReportsTranscriptFailure(url, transcripts, summarize);
    NotOkShowsDetail(u, info, Some(ClassifyFetchError(message)));
    DispatchCleanup(u, info, Failed(Some(ClassifyFetchError(message))));
  }

  /** The route's answer to a URL the client sends, when the transcript fails. */
  lemma ServerReportsTranscriptFailure(url: string, transcripts: Routes.Transcripts, summarize: Routes.Summarizer)
    requires IsValidYouTubeUrl(url) && ExtractVideoId(url).Some?
    requires ParseVideoId(url).Some? && transcripts(ParseVideoId(url).value).Raised?
    ensures AsApiOutcome(Routes.ExtractCaptions(url, transcripts, summarize)) ==
      Failed(Some(ClassifyFetchError(transcripts(ParseVideoId(url).value).message)))
  {
    ClientGatesImplyServerValid(url);
    Routes.TranscriptFailureDetail(url, transcripts, summarize);
  }

  /** With both `dev=` and `&v=` in the URL, a successful session stores one
      video's id while the player shows another. */
  lemma SessionIdsDiverge(u: Ui, info: InfoOutcome, transcripts: Routes.Transcripts, summarize: Routes.Summarizer)
    requires DivergingInput(u.input)
    requires Routes.ExtractCaptions(Trim(u.input), transcripts, summarize).Ok?
    ensures var r := Session(u, info, transcripts, summarize);
      r.videoId == "aaaaaa" && r.embedSrc == EmbedHead + "bbbbbb"
  {
    DivergingGate(u.input);
    SessionIds(u, info, transcripts, summarize);
    DispatchCleanup(u, info, AsApiOutcome(Routes.ExtractCaptions(Trim(u.input), transcripts, summarize)));
  }

  /** An input that trims to a URL with both `dev=` and `&v=`. */
  predicate DivergingInput(input: string) {
    Trim(input) == "youtube.com/watch?dev=aaaaaa&v=bbbbbb"
  }

  lemma DivergingGate(input: string)
    requires DivergingInput(input)
    ensures Gate(input).Ok?
    ensures ParseVideoId(Trim(input)) == Some("aaaaaa") && ExtractVideoId(Trim(input)) == Some("bbbbbb")
  {
    var url := Trim(input);
    IdsDiverge(url);
    DivergeShape(url);
  }

  lemma DivergeShape(url: string)
    requires url == "youtube.com/watch?dev=aaaaaa&v=bbbbbb"
    ensures IsValidYouTubeUrl(url)
  {
    assert url == "youtube.com/" + "watch?dev=aaaaaa&v=bbbbbb";
    DivergeParts(url);
  }

  lemma DivergeParts(url: string)
    requires url == "youtube.com/" + "watch?dev=aaaaaa&v=bbbbbb"
    ensures ShapeWith(JavaScript, url, NoScheme, NoSubdomain, YoutubeCom)
  {
    assert AllLine(JavaScript, "watch?dev=aaaaaa&v=bbbbbb");
    ExactShape(JavaScript, url, NoScheme, NoSubdomain, YoutubeCom, "watch?dev=aaaaaa&v=bbbbbb");
  }

}

=== FILE: outcomes.dfy ===
/** Optional values and success-or-error results, used wherever the modelled
    code returns `None`/`null` or raises an exception. */
module Outcomes {

  /** A value that may be absent (Python `None`, JavaScript `null`). */
  datatype Option<+T> = None | Some(value: T)

  /** Either a computed value or the error that replaced it. */
  datatype Result<+T, +E> = Ok(value: T) | Err(error: E)

  /** Truthiness of an optional string: present and non-empty. Python's
      `str | None` and JavaScript's string-or-absent values agree on it. */
  predicate Truthy(s: Option<string>) {
    s.Some? && s.value != ""
  }
}

=== FILE: quiz.dfy ===
/** The quiz placeholder (app/services/quiz.py): a fixed list of four
    questions cut to the requested count with Python's `[:n]` slice. */
module Quiz {

  const Placeholders: seq<string> := [
    "Placeholder Question 1: What was the main topic?",
    "Placeholder Question 2: What were the key points?",
    "Placeholder Question 3: What examples were given?",
    "Placeholder Question 4: What was the conclusion?"
  ]

  /** The default `num_questions`. */
  const DefaultCount: int := 4

  /** Where Python's `s[:n]` stops on a sequence of length `len`: a negative
      `n` counts from the end, and the bound is clamped to `0..len`. */
  function SliceStop(len: nat, n: int): (e: nat)
    ensures e <= len
  {
    if n >= 0 then (if n < len then n else len)
    else if len + n > 0 then len + n else 0
  }

  /** `generate_quiz_questions(summary, num_questions)`: the first questions
      of the fixed list; the summary is not looked at. */
  function GenerateQuizQuestions(summary: string, numQuestions: int): (r: seq<string>)
    ensures |r| <= |Placeholders|
    ensures r == Placeholders[..|r|]
    ensures numQuestions >= 0 ==> |r| == if numQuestions < 4 then numQuestions else 4
    ensures numQuestions < 0 ==> |r| == if numQuestions > -4 then 4 + numQuestions else 0
  {
    Placeholders[..SliceStop(|Placeholders|, numQuestions)]
  }

  /** The default count yields all four questions. */
  lemma DefaultGivesAll(summary: string)
    ensures GenerateQuizQuestions(summary, DefaultCount) == Placeholders
  {
  }

  /** Two summaries, same questions. */
  lemma IgnoresSummary(s1: string, s2: string, n: int)
    ensures GenerateQuizQuestions(s1, n) == GenerateQuizQuestions(s2, n)
  {
  }

  /** Among counts of one sign, asking for more never loses a question: the
      smaller count gives a prefix of the larger one. (Across signs it fails:
      `[:-1]` keeps three questions, `[:0]` none.) */
  lemma CountsNest(summary: string, m: int, n: int)
    requires m <= n
    requires 0 <= m || n < 0
    ensures GenerateQuizQuestions(summary, m) <= GenerateQuizQuestions(summary, n)
  {
    var a, b := GenerateQuizQuestions(summary, m), GenerateQuizQuestions(summary, n);
    assert |a| <= |b|;
    assert a == Placeholders[..|a|] && b == Placeholders[..|b|];
    assert a == b[..|a|];
  }
}

=== FILE: routes.dfy ===
/** The HTTP routes (app/api/routes/process.py) as functions from a request
    to a response or an HTTP error. The transcript library and the summary
    service are not modelled: the routes receive what they would return. */
module Routes {
  import opened Outcomes
  import opened Text
  import opened UrlGrammar
  import opened ServerUrl
  import opened Captions
  import opened Quiz

  /** An `HTTPException(status_code, detail)`. */
  datatype HttpError = HttpError(status: int, detail: string)

  datatype ValidationResponse = ValidationResponse(valid: bool, reason: Option<string>)
  datatype ProcessResponse = ProcessResponse(status: string, videoId: string, summary: string, quizQuestions: seq<string>)
  datatype SummarizeResponse = SummarizeResponse(status: string, videoId: string, captions: string, summary: string)
  datatype GptSummaryResponse = GptSummaryResponse(status: string, summary: string, modelUsed: Option<string>)

  /** What the transcript library yields or raises for each video id. */
  type Transcripts = string -> FetchOutcome
  /** `generate_three_sentence_summary`: a summary of the captions, or the
      `str` of the exception it raises. */
  type Summarizer = string -> Result<string, string>

  const InvalidUrl: string := "Invalid YouTube URL"
  const UnparsableId: string := "Could not parse video id from URL"
  const Success: string := "success"
  /** `num_questions` as `/process` passes it. */
  const QuizCount: int := 4

  /** `POST /validate`. */
  function Validate(url: string): (r: ValidationResponse)
    ensures r.valid <==>
      && ShapeSpec(Python, url)
      && (Occurs(url, ShortLink) || Occurs(url, BareWatch) || Occurs(url, EmbedPath))
    ensures r.reason.None? <==> r.valid
    ensures r.reason.Some? ==> r.reason.value == InvalidUrl
  {
    var valid := ValidateYoutubeUrl(url);
    ValidationResponse(valid, if valid then None else Some(InvalidUrl))
  }

  /** The two checks both caption routes open with: a 422 answer, or the
      parsed id. The second 422 ("Could not parse video id from URL") never
      fires, because validation already asks for an id. */
  function Admit(url: string): (r: Result<string, HttpError>)
    ensures r.Err? <==> !ValidateYoutubeUrl(url)
    ensures r.Err? ==> r.error == HttpError(422, InvalidUrl)
    ensures r.Ok? ==> ParseVideoId(url) == Some(r.value) && |r.value| >= MinIdLen
  {
    if !ValidateYoutubeUrl(url) then Err(HttpError(422, InvalidUrl))
    else
      match ParseVideoId(url)
      case None => Err(HttpError(422, UnparsableId))
      case Some(id) => if id == "" then Err(HttpError(422, UnparsableId)) else Ok(id)
  }

  /** The `try` body both caption routes share: fetch the transcript, then
      summarize it. A raised exception becomes its message. */
  function CaptionsThenSummary(id: string, transcripts: Transcripts, summarize: Summarizer): (r: Result<(string, string), string>)
    ensures r.Ok? <==> FetchTranscriptText(transcripts(id)).Ok? && summarize(FetchTranscriptText(transcripts(id)).value).Ok?
    ensures r.Ok? ==> FetchTranscriptText(transcripts(id)) == Ok(r.value.0) && summarize(r.value.0) == Ok(r.value.1)
    ensures r.Err? && FetchTranscriptText(transcripts(id)).Err? ==> r.error == FetchTranscriptText(transcripts(id)).error
    ensures r.Err? && FetchTranscriptText(transcripts(id)).Ok? ==> r.error == summarize(FetchTranscriptText(transcripts(id)).value).error
  {
    match FetchTranscriptText(transcripts(id))
    case Err(e) => Err(e)
    case Ok(captions) =>
      match summarize(captions)
      case Err(e) => Err(e)
      case Ok(summary) => Ok((captions, summary))
  }

  /** `POST /extract`. */
  function ExtractCaptions(url: string, transcripts: Transcripts, summarize: Summarizer): (r: Result<SummarizeResponse, HttpError>)
    ensures !ValidateYoutubeUrl(url) ==> r == Err(HttpError(422, InvalidUrl))
    ensures r.Err? ==> r.error.status == 422 || r.error.status == 400
    ensures r.Err? && r.error.status == 422 ==> r.error.detail == InvalidUrl && !ValidateYoutubeUrl(url)
    ensures r.Err? && r.error.status == 400 ==>
      ValidateYoutubeUrl(url) && CaptionsThenSummary(ParseVideoId(url).value, transcripts, summarize) == Err(r.error.detail)
    ensures r.Ok? ==>
      && r.value.status == Success
      && ParseVideoId(url) == Some(r.value.videoId)
      && FetchTranscriptText(transcripts(r.value.videoId)) == Ok(r.value.captions)
      && summarize(r.value.captions) == Ok(r.value.summary)
  {
    match Admit(url)
    case Err(e) => Err(e)
    case Ok(id) =>
      match CaptionsThenSummary(id, transcripts, summarize)
      case Err(message) => Err(HttpError(400, message))
      case Ok((captions, summary)) => Ok(SummarizeResponse(Success, id, captions, summary))
  }

  /** `POST /process`. */
  function ProcessVideo(url: string, transcripts: Transcripts, summarize: Summarizer): (r: Result<ProcessResponse, HttpError>)
    ensures !ValidateYoutubeUrl(url) ==> r == Err(HttpError(422, InvalidUrl))
    ensures r.Err? ==> r.error.status == 422 || r.error.status == 400
    ensures r.Err? && r.error.status == 422 ==> r.error.detail == InvalidUrl && !ValidateYoutubeUrl(url)
    ensures r.Err? && r.error.status == 400 ==>
      ValidateYoutubeUrl(url) && CaptionsThenSummary(ParseVideoId(url).value, transcripts, summarize) == Err(r.error.detail)
    ensures r.Ok? ==>
      && r.value.status == Success
      && ParseVideoId(url) == Some(r.value.videoId)
      && (exists captions :: FetchTranscriptText(transcripts(r.value.videoId)) == Ok(captions) && summarize(captions) == Ok(r.value.summary))
      && r.value.quizQuestions == Placeholders
  {
    match Admit(url)
    case Err(e) => Err(e)
    case Ok(id) =>
      match CaptionsThenSummary(id, transcripts, summarize)
      case Err(message) => Err(HttpError(400, message))
      case Ok((captions, summary)) =>
        Ok(ProcessResponse(Success, id, summary, GenerateQuizQuestions(summary, QuizCount)))
  }

  /** An invalid URL is refused before any transcript is fetched: the answer
      does not depend on the transcript library or the summary service. */
  lemma RefusedBeforeFetch(url: string, t1: Transcripts, t2: Transcripts, s1: Summarizer, s2: Summarizer)
    requires !ValidateYoutubeUrl(url)
    ensures ExtractCaptions(url, t1, s1) == ExtractCaptions(url, t2, s2)
    ensures ProcessVideo(url, t1, s1) == ProcessVideo(url, t2, s2)
  {
  }

  /** `/extract` and `/process` agree on the id and on every failure. */
  lemma RoutesAgree(url: string, transcripts: Transcripts, summarize: Summarizer)
    ensures ExtractCaptions(url, transcripts, summarize).Ok? <==> ProcessVideo(url, transcripts, summarize).Ok?
    ensures ExtractCaptions(url, transcripts, summarize).Err? ==>
      ExtractCaptions(url, transcripts, summarize).error == ProcessVideo(url, transcripts, summarize).error
    ensures ExtractCaptions(url, transcripts, summarize).Ok? ==>
      && ExtractCaptions(url, transcripts, summarize).value.videoId == ProcessVideo(url, transcripts, summarize).value.videoId
      && ExtractCaptions(url, transcripts, summarize).value.summary == ProcessVideo(url, transcripts, summarize).value.summary
  {
  }

  /** A transcript failure reaches the caller as a 400 whose detail is the
      classified message, so it starts with "Error: ". */
  lemma TranscriptFailureDetail(url: string, transcripts: Transcripts, summarize: Summarizer)
    requires ValidateYoutubeUrl(url)
    requires transcripts(ParseVideoId(url).value).Raised?
    ensures var r := ExtractCaptions(url, transcripts, summarize);
      && r.Err? && r.error.status == 400
      && r.error.detail == ClassifyFetchError(transcripts(ParseVideoId(url).value).message)
      && StartsWith(r.error.detail, ErrorTag)
  {
  }

  // ---------------------------------------------------------------------------
  // `POST /gpt-summarize`

  /** The three fixed stretches of the placeholder summary, around the
      caption length and the prompt flag. */
  const SummaryOpen: string :=
    "\U{1F916} AI Summary (Placeholder): " + "This is where GPT-generated summary will appear. " + "Caption length: "
  const SummaryMiddle: string := " characters. " + "Custom prompt: "
  const SummaryClose: string :=
    ". " + "Future integration will use OpenAI GPT-4, " + "Anthropic Claude, or Google Gemini."
  const PlaceholderModel: string := "placeholder-v1"

  function PromptWord(custom: bool): string {
    if custom then "Yes" else "Default"
  }

  /** `gpt_summarize`: a placeholder summary reporting the caption length in
      characters and whether a custom prompt was given. */
  function GptSummarize(captions: string, prompt: Option<string>): (r: GptSummaryResponse)
    ensures r.status == Success && r.modelUsed == Some(PlaceholderModel)
    ensures ReadPlaceholder(r.summary) == Some(PlaceholderFacts(|captions|, Truthy(prompt)))
  {
    var s := SummaryOpen + NatToString(|captions|) + SummaryMiddle + PromptWord(Truthy(prompt)) + SummaryClose;
    ReadBack(|captions|, Truthy(prompt));
    GptSummaryResponse(Success, s, Some(PlaceholderModel))
  }

  /** What a reader of the placeholder summary can learn from it. */
  datatype PlaceholderFacts = PlaceholderFacts(captionLength: nat, customPrompt: bool)

  /** Reads the caption length and the prompt flag back out of a placeholder
      summary, or `None` if the text is not of that form. The length must be
      written as `str(len)` writes it: digits without a leading zero. */
  function ReadPlaceholder(s: string): Option<PlaceholderFacts> {
    if !StartsWith(s, SummaryOpen) then None
    else
      var rest := s[|SummaryOpen|..];
      var n := DigitRun(rest);
      if n == 0 || (n > 1 && rest[0] == '0') then None
      else
        var after := rest[n..];
        if after == SummaryMiddle + PromptWord(true) + SummaryClose then Some(PlaceholderFacts(ParseDigits(rest[..n]), true))
        else if after == SummaryMiddle + PromptWord(false) + SummaryClose then Some(PlaceholderFacts(ParseDigits(rest[..n]), false))
        else None
  }

  /** The summary format is read back to the facts written into it. */
  lemma ReadBack(len: nat, custom: bool)
    ensures ReadPlaceholder(SummaryOpen + NatToString(len) + SummaryMiddle + PromptWord(custom) + SummaryClose)
      == Some(PlaceholderFacts(len, custom))
  {
    var d := NatToString(len);
    var tail := SummaryMiddle + PromptWord(custom) + SummaryClose;
    Regroup(SummaryOpen, d, SummaryMiddle, PromptWord(custom), SummaryClose);
    AfterHead(SummaryOpen, d + tail);
    MiddleStartsWithSpace();
    DigitsThenTail(d, tail);
    ParseNatToString(len);
    if !custom {
      assert |tail| != |SummaryMiddle + PromptWord(true) + SummaryClose|;
    }
  }

  /** A length written with a leading zero is not one `str(len)` produces,
      and is not read back. */
  lemma LeadingZeroRejected(d: string, custom: bool)
    requires |d| > 1 && d[0] == '0'
    requires forall k :: 0 <= k < |d| ==> IsDigit(d[k])
    ensures ReadPlaceholder(SummaryOpen + d + SummaryMiddle + PromptWord(custom) + SummaryClose) == None
  {
    var tail := SummaryMiddle + PromptWord(custom) + SummaryClose;
    Regroup(SummaryOpen, d, SummaryMiddle, PromptWord(custom), SummaryClose);
    AfterHead(SummaryOpen, d + tail);
    MiddleStartsWithSpace();
    DigitsThenTail(d, tail);
    assert (d + tail)[0] == d[0];
  }

  // The steps below are stated over string parameters, so that the solver
  // never unfolds the long summary constants while proving them.

  lemma MiddleStartsWithSpace()
    ensures |SummaryMiddle| > 0 && !IsDigit(SummaryMiddle[0])
  {
    assert SummaryMiddle[0] == ' ';
  }

  lemma Regroup(a: string, b: string, c: string, d: string, e: string)
    ensures a + b + c + d + e == a + (b + (c + d + e))
  {
  }

  lemma AfterHead(head: string, rest: string)
    ensures StartsWith(head + rest, head) && (head + rest)[|head|..] == rest
  {
    assert (head + rest)[..|head|] == head;
  }

  /** A non-empty digit string followed by a non-digit is read as one run. */
  lemma DigitsThenTail(d: string, tail: string)
    requires forall k :: 0 <= k < |d| ==> IsDigit(d[k])
    requires |tail| > 0 && !IsDigit(tail[0])
    ensures DigitRun(d + tail) == |d|
    ensures (d + tail)[..|d|] == d && (d + tail)[|d|..] == tail
  {
    DigitRunIs(d + tail, |d|);
  }
}

=== FILE: server_url.dfy ===
/** The server's URL rules (app/services/url.py): the case-insensitive shape
    regex, the video-id search over three patterns in priority order, and
    validation, which asks for both. */
module ServerUrl {
  import opened Outcomes
  import opened UrlGrammar

  /** `YOUTUBE_REGEX.match(url)` succeeds. */
  function YoutubeRegexMatches(url: string): (ok: bool)
    ensures ok <==> ShapeSpec(Python, url)
  {
    MatchesShapeSpec(Python, url);
    MatchesShape(Python, url)
  }

  /** `parse_video_id`: `youtu.be/` first, then a bare `v=`, then `/embed/`;
      each is the leftmost match followed by at least six id characters. */
  function ParseVideoId(url: string): (r: Option<string>)
    ensures Occurs(url, ShortLink) ==> r.Some? && IsLeftmostId(url, ShortLink, r.value)
    ensures !Occurs(url, ShortLink) && Occurs(url, BareWatch) ==>
      r.Some? && IsLeftmostId(url, BareWatch, r.value)
    ensures !Occurs(url, ShortLink) && !Occurs(url, BareWatch) && Occurs(url, EmbedPath) ==>
      r.Some? && IsLeftmostId(url, EmbedPath, r.value)
    ensures r.None? <==> !Occurs(url, ShortLink) && !Occurs(url, BareWatch) && !Occurs(url, EmbedPath)
    ensures r.Some? ==> |r.value| >= MinIdLen && forall k :: 0 <= k < |r.value| ==> IsIdChar(r.value[k])
  {
    match Search(url, ShortLink)
    case Some(id) => Some(id)
    case None =>
      match Search(url, BareWatch)
      case Some(id) => Some(id)
      case None => Search(url, EmbedPath)
  }

  /** `validate_youtube_url`: the shape holds and some id pattern occurs. */
  function ValidateYoutubeUrl(url: string): (ok: bool)
    ensures ok <==>
      && ShapeSpec(Python, url)
      && (Occurs(url, ShortLink) || Occurs(url, BareWatch) || Occurs(url, EmbedPath))
    ensures ok ==> ParseVideoId(url).Some?
  {
    YoutubeRegexMatches(url) && ParseVideoId(url).Some?
  }
}

=== FILE: text.dfy ===
/** String utilities shared by the server and client models: substring search,
    ASCII lower-casing, JavaScript `trim`, joining and splitting on a separator,
    and decimal rendering of natural numbers. */
module Text {

  /** `t` occurs in `s` as a contiguous substring (Python `in`, JavaScript `includes`). */
  predicate Contains(s: string, t: string) {
    exists i | 0 <= i <= |s| - |t| :: OccursAt(s, t, i)
  }

  /** `t` occurs in `s` starting at index `i`. */
  predicate OccursAt(s: string, t: string, i: nat) {
    i + |t| <= |s| && s[i..i + |t|] == t
  }

  /** `s` begins with `p` (Python `startswith`). */
  predicate StartsWith(s: string, p: string) {
    |p| <= |s| && s[..|p|] == p
  }

  /** Lower-cases the 26 ASCII capitals and leaves every other character alone. */
  function LowerChar(c: char): char {
    if 'A' <= c <= 'Z' then (c as int + 32) as char else c
  }

  /** Lower-cases a string character by character. */
  function AsciiLower(s: string): (r: string)
    ensures |r| == |s|
    ensures forall k :: 0 <= k < |s| ==> r[k] == LowerChar(s[k])
  {
    seq(|s|, k requires 0 <= k < |s| => LowerChar(s[k]))
  }

  /** Lower-casing a slice is the slice of the lower-cased string. */
  lemma AsciiLowerSlice(s: string, i: nat, j: nat)
    requires i <= j <= |s|
    ensures AsciiLower(s)[i..j] == AsciiLower(s[i..j])
  {
    var a, b := AsciiLower(s)[i..j], AsciiLower(s[i..j]);
    assert |a| == |b|;
    forall k | 0 <= k < |a|
      ensures a[k] == b[k]
    {
      assert a[k] == LowerChar(s[i + k]);
    }
  }

  /** The characters JavaScript's `String.prototype.trim` removes: the
      WhiteSpace and LineTerminator productions of ECMAScript. */
  predicate IsJsSpace(c: char) {
    || c == '\t' || c == '\n' || c == '\U{B}' || c == '\U{C}' || c == '\r' || c == ' '
    || c == '\U{A0}' || c == '\U{1680}' || ('\U{2000}' <= c <= '\U{200A}')
    || c == '\U{2028}' || c == '\U{2029}' || c == '\U{202F}' || c == '\U{205F}'
    || c == '\U{3000}' || c == '\U{FEFF}'
  }

  predicate AllSpace(s: string) {
    forall k :: 0 <= k < |s| ==> IsJsSpace(s[k])
  }

  /** Length of the run of white space at the start of `s`. */
  function LeadingSpace(s: string): (n: nat)
    ensures n <= |s|
    ensures AllSpace(s[..n])
    ensures n == |s| || !IsJsSpace(s[n])
  {
    if s == [] || !IsJsSpace(s[0]) then 0 else 1 + LeadingSpace(s[1..])
  }

  /** Length of the run of white space at the end of `s`. */
  function TrailingSpace(s: string): (n: nat)
    ensures n <= |s|
    ensures AllSpace(s[|s| - n..])
    ensures n == |s| || !IsJsSpace(s[|s| - 1 - n])
  {
    if s == [] || !IsJsSpace(s[|s| - 1]) then 0 else 1 + TrailingSpace(s[..|s| - 1])
  }

  /** JavaScript `s.trim()`: the slice of `s` left after removing white space
      from both ends; it neither starts nor ends with white space, and what was
      removed is white space only. */
  function Trim(s: string): (r: string)
    ensures exists a, b :: 0 <= a <= b <= |s| && r == s[a..b] && AllSpace(s[..a]) && AllSpace(s[b..])
    ensures r == [] || (!IsJsSpace(r[0]) && !IsJsSpace(r[|r| - 1]))
  {
    var a, b := TrimStart(s), TrimEnd(s);
    TrimBounds(s);
    var r := s[a..b];
    assert 0 <= a <= b <= |s| && r == s[a..b] && AllSpace(s[..a]) && AllSpace(s[b..]);
    assert r != [] ==> r[0] == s[a] && r[|r| - 1] == s[b - 1];
    r
  }

  function TrimStart(s: string): nat {
    LeadingSpace(s)
  }

  function TrimEnd(s: string): nat {
    |s| - TrailingSpace(s[LeadingSpace(s)..])
  }

  /** What the two cut points of `Trim` cut off. */
  lemma TrimBounds(s: string)
    ensures 0 <= TrimStart(s) <= TrimEnd(s) <= |s|
    ensures AllSpace(s[..TrimStart(s)]) && AllSpace(s[TrimEnd(s)..])
    ensures TrimStart(s) < TrimEnd(s) ==> !IsJsSpace(s[TrimStart(s)]) && !IsJsSpace(s[TrimEnd(s) - 1])
  {
    var a := LeadingSpace(s);
    var rest := s[a..];
    var t := TrailingSpace(rest);
    assert rest[|rest| - t..] == s[|s| - t..];
    if t < |rest| {
      assert rest[|rest| - 1 - t] == s[|s| - 1 - t];
    }
  }

  /** JavaScript's `s.length`: UTF-16 code units, two for each character
      outside the Basic Multilingual Plane. */
  function Utf16Length(s: string): (n: nat)
    ensures |s| <= n <= 2 * |s|
  {
    if s == [] then 0 else (if s[0] as int >= 0x1_0000 then 2 else 1) + Utf16Length(s[1..])
  }

  /** Without characters beyond the Basic Multilingual Plane, JavaScript's
      length is Python's `len`. */
  lemma {:induction false} Utf16LengthBmp(s: string)
    requires forall k :: 0 <= k < |s| ==> s[k] as int < 0x1_0000
    ensures Utf16Length(s) == |s|
  {
    if s != [] {
      Utf16LengthBmp(s[1..]);
    }
  }

  /** Python `sep.join(parts)`. */
  function Join(parts: seq<string>, sep: string): string {
    if |parts| == 0 then ""
    else if |parts| == 1 then parts[0]
    else parts[0] + sep + Join(parts[1..], sep)
  }

  /** Where piece `k` of `Join(parts, sep)` starts: every earlier piece is
      followed by one separator. */
  function JoinOffset(parts: seq<string>, sep: string, k: nat): nat
    requires k <= |parts|
  {
    if k == 0 then 0 else JoinOffset(parts, sep, k - 1) + |parts[k - 1]| + |sep|
  }

  /** The joined string is the pieces and the separators between them, and nothing else. */
  lemma {:induction false} JoinLength(parts: seq<string>, sep: string)
    requires |parts| >= 1
    ensures |Join(parts, sep)| == JoinOffset(parts, sep, |parts| - 1) + |parts[|parts| - 1]|
  {
    if |parts| > 1 {
      JoinLength(parts[1..], sep);
      JoinOffsetTail(parts, sep, |parts| - 1);
    }
  }

  /** Piece `k` sits at its offset. */
  lemma {:induction false} JoinPiece(parts: seq<string>, sep: string, k: nat)
    requires k < |parts|
    ensures OccursAt(Join(parts, sep), parts[k], JoinOffset(parts, sep, k))
  {
    var j := Join(parts, sep);
    if k == 0 {
      if |parts| > 1 {
        assert j[..|parts[0]|] == parts[0];
      }
    } else {
      var rest := Join(parts[1..], sep);
      JoinPiece(parts[1..], sep, k - 1);
      JoinOffsetTail(parts, sep, k);
      ShiftedSlice(parts[0] + sep, rest, JoinOffset(parts[1..], sep, k - 1), |parts[k]|);
    }
  }

  /** Every piece but the last is followed by a separator. */
  lemma {:induction false} JoinSeparator(parts: seq<string>, sep: string, k: nat)
    requires k + 1 < |parts|
    ensures OccursAt(Join(parts, sep), sep, JoinOffset(parts, sep, k) + |parts[k]|)
  {
    var j := Join(parts, sep);
    if k == 0 {
      assert j[|parts[0]|..|parts[0]| + |sep|] == sep;
    } else {
      var rest := Join(parts[1..], sep);
      JoinSeparator(parts[1..], sep, k - 1);
      JoinOffsetTail(parts, sep, k);
      ShiftedSlice(parts[0] + sep, rest, JoinOffset(parts[1..], sep, k - 1) + |parts[k]|, |sep|);
    }
  }

  /** A slice of the second half of `a + b` is the same slice of `b`, shifted. */
  lemma ShiftedSlice(a: string, b: string, o: nat, n: nat)
    requires o + n <= |b|
    ensures (a + b)[|a| + o..|a| + o + n] == b[o..o + n]
  {
  }

  /** Dropping the first piece shifts every offset by that piece and one separator. */
  lemma {:induction false} JoinOffsetTail(parts: seq<string>, sep: string, k: nat)
    requires 1 <= k <= |parts|
    ensures JoinOffset(parts, sep, k) == |parts[0]| + |sep| + JoinOffset(parts[1..], sep, k - 1)
  {
    if k > 1 {
      JoinOffsetTail(parts, sep, k - 1);
    }
  }

  /** Python `s.split(c)` for a one-character separator: the pieces between
      consecutive separators, always at least one. */
  function Split(s: string, c: char): (r: seq<string>)
    ensures |r| >= 1
  {
    if s == [] then [""]
    else
      var rest := Split(s[1..], c);
      if s[0] == c then [""] + rest else [[s[0]] + rest[0]] + rest[1..]
  }

  lemma {:induction false} SplitNoSeparator(s: string, c: char)
    requires c !in s
    ensures Split(s, c) == [s]
  {
    if s != [] {
      SplitNoSeparator(s[1..], c);
      assert [s[0]] + s[1..] == s;
    }
  }

  lemma {:induction false} SplitAfterPiece(a: string, c: char, b: string)
    requires c !in a
    ensures Split(a + [c] + b, c) == [a] + Split(b, c)
  {
    if a == [] {
      assert a + [c] + b == [c] + b;
      assert ([c] + b)[1..] == b;
    } else {
      assert (a + [c] + b)[1..] == a[1..] + [c] + b;
      SplitAfterPiece(a[1..], c, b);
      assert [a[0]] + a[1..] == a;
    }
  }

  /** Splitting undoes joining, provided no piece contains the separator. */
  lemma {:induction false} SplitJoin(parts: seq<string>, c: char)
    requires |parts| >= 1
    requires forall k :: 0 <= k < |parts| ==> c !in parts[k]
    ensures Split(Join(parts, [c]), c) == parts
  {
    if |parts| == 1 {
      SplitNoSeparator(parts[0], c);
    } else {
      SplitJoin(parts[1..], c);
      SplitAfterPiece(parts[0], c, Join(parts[1..], [c]));
      assert [parts[0]] + parts[1..] == parts;
    }
  }

  predicate IsDigit(c: char) {
    '0' <= c <= '9'
  }

  function DigitChar(d: nat): (c: char)
    requires d < 10
    ensures IsDigit(c) && c as int - '0' as int == d
  {
    (d + '0' as int) as char
  }

  /** The decimal rendering of `n`, as Python's `str(n)` and f-strings write it. */
  function NatToString(n: nat): (r: string)
    ensures |r| >= 1
    ensures forall k :: 0 <= k < |r| ==> IsDigit(r[k])
    ensures |r| > 1 ==> r[0] != '0'
  {
    if n < 10 then [DigitChar(n)] else NatToString(n / 10) + [DigitChar(n % 10)]
  }

  /** Reads a string of decimal digits as a number. */
  function ParseDigits(s: string): nat
    requires forall k :: 0 <= k < |s| ==> IsDigit(s[k])
  {
    if s == [] then 0
    else
      assert IsDigit(s[|s| - 1]);
      ParseDigits(s[..|s| - 1]) * 10 + (s[|s| - 1] as int - '0' as int)
  }

  /** Length of the run of decimal digits at the start of `s`. */
  function DigitRun(s: string): (n: nat)
    ensures n <= |s|
    ensures forall k :: 0 <= k < n ==> IsDigit(s[k])
    ensures n == |s| || !IsDigit(s[n])
  {
    if s == [] || !IsDigit(s[0]) then 0 else 1 + DigitRun(s[1..])
  }

  /** The digit run is the one fixed by its defining facts. */
  lemma {:induction false} DigitRunIs(s: string, n: nat)
    requires n <= |s|
    requires forall k :: 0 <= k < n ==> IsDigit(s[k])
    requires n == |s| || !IsDigit(s[n])
    ensures DigitRun(s) == n
  {
    if n > 0 {
      DigitRunIs(s[1..], n - 1);
    }
  }

  /** Reading back a rendered number gives the number. */
  lemma {:induction false} ParseNatToString(n: nat)
    ensures ParseDigits(NatToString(n)) == n
  {
    if n >= 10 {
      var r := NatToString(n);
      assert r[..|r| - 1] == NatToString(n / 10);
      ParseNatToString(n / 10);
    }
  }
}

=== FILE: url_examples.dfy ===
/** The worked examples of the client's id extraction, with what the server
    makes of the same URLs. */
module UrlExamples {
  import opened Outcomes
  import opened UrlGrammar
  import opened ServerUrl
  import opened ClientUrl
  import opened UrlRelations

  /** A short link: both sides take the id after `youtu.be/`. */
  lemma ShortLinkExample(u: string)
    requires u == "https://youtu.be/ABC123xyz"
    ensures IsValidYouTubeUrl(u)
    ensures ExtractVideoId(u) == Some("ABC123xyz")
    ensures ParseVideoId(u) == Some("ABC123xyz")
  {
    ShortLinkShape(u);
    ShortLinkSearch(u);
    ShortLinkIdsAgree(u);
  }

  lemma ShortLinkShape(u: string)
    requires u == "https://youtu.be/ABC123xyz"
    ensures IsValidYouTubeUrl(u)
  {
    assert u == "https://youtu.be/" + "ABC123xyz";
    ShortLinkParts(u);
  }

  lemma ShortLinkParts(u: string)
    requires u == "https://youtu.be/" + "ABC123xyz"
    ensures ShapeWith(JavaScript, u, Https, NoSubdomain, YoutuBe)
  {
    assert AllLine(JavaScript, "ABC123xyz");
    ExactShape(JavaScript, u, Https, NoSubdomain, YoutuBe, "ABC123xyz");
  }

  lemma ShortLinkSearch(u: string)
    requires u == "https://youtu.be/ABC123xyz"
    ensures Search(u, ShortLink) == Some("ABC123xyz")
  {
    forall j: nat | j < 8 ensures !PrefixAt(u, j, ShortLink) {
      PrefixChar(u, j, ShortLink, 0);
    }
    assert PrefixAt(u, 8, ShortLink);
    FirstPrefixMatch(u, ShortLink, 8, "ABC123xyz");
  }

  /** A watch URL with a further parameter: the id stops at `&`. */
  lemma WatchExample(u: string)
    requires u == "https://www.youtube.com/watch" + "?v=ABC123xyz&t=10"
    ensures IsValidYouTubeUrl(u)
    ensures ExtractVideoId(u) == Some("ABC123xyz")
  {
    assert NoYoutuDot(u);
    NoShortLinkWithoutYoutuDot(u);
    WatchShape(u);
    WatchSearch(u);
  }

  lemma WatchShape(u: string)
    requires u == "https://www.youtube.com/watch" + "?v=ABC123xyz&t=10"
    ensures IsValidYouTubeUrl(u)
  {
    assert u == "https://www.youtube.com/" + "watch?v=ABC123xyz&t=10";
    WatchParts(u);
  }

  lemma WatchParts(u: string)
    requires u == "https://www.youtube.com/" + "watch?v=ABC123xyz&t=10"
    ensures ShapeWith(JavaScript, u, Https, Www, YoutubeCom)
  {
    assert AllLine(JavaScript, "watch?v=ABC123xyz&t=10");
    ExactShape(JavaScript, u, Https, Www, YoutubeCom, "watch?v=ABC123xyz&t=10");
  }

  lemma WatchSearch(u: string)
    requires u == "https://www.youtube.com/watch" + "?v=ABC123xyz&t=10"
    ensures Search(u, QueryWatch) == Some("ABC123xyz")
  {
    forall j: nat | j < 29 ensures !PrefixAt(u, j, QueryWatch) {
      PrefixChar(u, j, QueryWatch, 0);
      PrefixChar(u, j, QueryWatch, 1);
    }
    assert PrefixAt(u, 29, QueryWatch);
    assert u[32..41] == "ABC123xyz";
    FirstPrefixMatch(u, QueryWatch, 29, "ABC123xyz");
  }

  /** A watch URL without `v=`: the shape holds, yet neither side finds an id,
      so the client stops at its second gate and the server would answer 422. */
  lemma NoIdExample(u: string)
    requires u == "https://youtube.com/watch?foo=bar"
    ensures IsValidYouTubeUrl(u)
    ensures ExtractVideoId(u).None?
    ensures ParseVideoId(u).None?
    ensures !ValidateYoutubeUrl(u)
  {
    assert NoYoutuDot(u);
    NoShortLinkWithoutYoutuDot(u);
    NoIdShape(u);
    NoIdNoQueryWatch(u);
    NoIdNoBareWatch(u);
    NoIdNoEmbed(u);
  }

  lemma NoIdShape(u: string)
    requires u == "https://youtube.com/watch?foo=bar"
    ensures IsValidYouTubeUrl(u)
  {
    assert u == "https://youtube.com/" + "watch?foo=bar";
    NoIdParts(u);
  }

  lemma NoIdParts(u: string)
    requires u == "https://youtube.com/" + "watch?foo=bar"
    ensures ShapeWith(JavaScript, u, Https, NoSubdomain, YoutubeCom)
  {
    assert AllLine(JavaScript, "watch?foo=bar");
    ExactShape(JavaScript, u, Https, NoSubdomain, YoutubeCom, "watch?foo=bar");
  }

  lemma NoIdNoQueryWatch(u: string)
    requires u == "https://youtube.com/watch?foo=bar"
    ensures Search(u, QueryWatch) == None
  {
    forall i: nat | i <= |u| ensures !PrefixAt(u, i, QueryWatch) {
      PrefixChar(u, i, QueryWatch, 0);
      PrefixChar(u, i, QueryWatch, 1);
    }
    NoPrefixNoMatch(u, QueryWatch);
  }

  lemma NoIdNoBareWatch(u: string)
    requires u == "https://youtube.com/watch?foo=bar"
    ensures Search(u, BareWatch) == None
  {
    forall i: nat | i <= |u| ensures !PrefixAt(u, i, BareWatch) {
      PrefixChar(u, i, BareWatch, 0);
    }
    NoPrefixNoMatch(u, BareWatch);
  }

  lemma NoIdNoEmbed(u: string)
    requires u == "https://youtube.com/watch?foo=bar"
    ensures Search(u, EmbedPath) == None
  {
    forall i: nat | i <= |u| ensures !PrefixAt(u, i, EmbedPath) {
      PrefixChar(u, i, EmbedPath, 0);
      PrefixChar(u, i, EmbedPath, 1);
    }
    NoPrefixNoMatch(u, EmbedPath);
  }
}

=== FILE: url_grammar.dfy ===
/** The two regular-expression shapes both halves of the application use for
    YouTube URLs, written out as hand-made matchers.

    The shape `^(https?://)?(www\.|m\.)?(youtube\.com|youtu\.be)/.+$`, matched
    case-insensitively, is interpreted by two engines that disagree on a few
    characters, so every definition here takes the `Dialect`:
    - case folding: Python's IGNORECASE also lets U+017F (long s) match `s`;
      JavaScript's `/i` without the `u` flag never maps a non-ASCII character
      onto an ASCII one;
    - `.`: Python excludes only `\n`; JavaScript excludes `\n`, `\r`, U+2028, U+2029;
    - `$`: Python also matches just before a final `\n`; JavaScript only at the end.

    The video-id patterns (`youtu\.be/([A-Za-z0-9_-]{6,})` and friends) are
    case-sensitive searches: the leftmost position where the prefix is followed
    by at least six id characters, capturing the maximal run of id characters. */
module UrlGrammar {
  import opened Outcomes

  datatype Dialect = Python | JavaScript

  // ---------------------------------------------------------------------------
  // The anchored shape

  /** Input character `c` matches pattern character `p` under case folding.
      Every letter in the shape pattern is a lower-case ASCII letter. */
  predicate FoldEq(d: Dialect, c: char, p: char) {
    || c == p
    || ('a' <= p <= 'z' && c as int == p as int - 32)
    || (d == Python && p == 's' && c == '\U{017F}')
  }

  /** `u` starts with the literal `lit`, up to case folding. */
  predicate FoldStarts(d: Dialect, u: string, lit: string) {
    |lit| <= |u| && forall k :: 0 <= k < |lit| ==> FoldEq(d, u[k], lit[k])
  }

  /** What the regex `.` matches. */
  predicate LineChar(d: Dialect, c: char) {
    match d
    case Python => c != '\n'
    case JavaScript => c != '\n' && c != '\r' && c != '\U{2028}' && c != '\U{2029}'
  }

  predicate AllLine(d: Dialect, t: string) {
    forall k :: 0 <= k < |t| ==> LineChar(d, t[k])
  }

  /** What `.+$` accepts at the end of the url. */
  predicate TailOk(d: Dialect, t: string) {
    || (|t| >= 1 && AllLine(d, t))
    || (d == Python && |t| >= 2 && t[|t| - 1] == '\n' && AllLine(d, t[..|t| - 1]))
  }

  /** The optional `https?://` group. */
  datatype Scheme = NoScheme | Http | Https
  /** The optional `(www\.|m\.)` group. */
  datatype Subdomain = NoSubdomain | Www | Mobile
  /** The `(youtube\.com|youtu\.be)` group. */
  datatype Host = YoutubeCom | YoutuBe

  function SchemeText(s: Scheme): string {
    match s
    case NoScheme => ""
    case Http => "http://"
    case Https => "https://"
  }

  function SubdomainText(w: Subdomain): string {
    match w
    case NoSubdomain => ""
    case Www => "www."
    case Mobile => "m."
  }

  function HostText(h: Host): string {
    match h
    case YoutubeCom => "youtube.com"
    case YoutuBe => "youtu.be"
  }

  /** `u` is scheme `s`, subdomain `w`, host `h`, `/` and an accepted tail. */
  predicate ShapeWith(d: Dialect, u: string, s: Scheme, w: Subdomain, h: Host) {
    HeadThenTail(d, u, SchemeText(s), SubdomainText(w), HostText(h) + "/")
  }

  /** `u` is `a`, `b`, `c` (up to case folding) and an accepted tail. */
  predicate HeadThenTail(d: Dialect, u: string, a: string, b: string, c: string) {
    FoldStarts(d, u, a + b + c) && TailOk(d, u[|a + b + c|..])
  }

  /** The shape as a set of strings: some choice of optional scheme, optional
      subdomain and host, then `/`, then a tail `.+$` accepts. */
  ghost predicate ShapeSpec(d: Dialect, u: string) {
    exists s, w, h :: ShapeWith(d, u, s, w, h)
  }

  /** The alternative the engine takes for the optional `https?://` group. */
  function SchemeOf(d: Dialect, u: string): (s: Scheme)
    ensures FoldStarts(d, u, SchemeText(s))
  {
    if FoldStarts(d, u, "https://") then Https
    else if FoldStarts(d, u, "http://") then Http
    else NoScheme
  }

  /** The alternative the engine takes for the optional `(www\.|m\.)` group. */
  function SubdomainOf(d: Dialect, u: string): (w: Subdomain)
    ensures FoldStarts(d, u, SubdomainText(w))
  {
    if FoldStarts(d, u, "www.") then Www
    else if FoldStarts(d, u, "m.") then Mobile
    else NoSubdomain
  }

  /** The host alternative followed by `/`, if either is there. */
  function HostOf(d: Dialect, u: string): (h: Option<Host>)
    ensures h.Some? ==> FoldStarts(d, u, HostText(h.value) + "/")
    ensures h.None? ==> !FoldStarts(d, u, "youtube.com/") && !FoldStarts(d, u, "youtu.be/")
  {
    if FoldStarts(d, u, "youtube.com/") then Some(YoutubeCom)
    else if FoldStarts(d, u, "youtu.be/") then Some(YoutuBe)
    else None
  }

  /** The regex match, group by group, left to right. */
  function MatchesShape(d: Dialect, u: string): bool {
    var u1 := u[|SchemeText(SchemeOf(d, u))|..];
    var u2 := u1[|SubdomainText(SubdomainOf(d, u1))|..];
    match HostOf(d, u2)
    case Some(h) => TailOk(d, u2[|HostText(h)| + 1..])
    case None => false
  }

  lemma FoldStartsSplit(d: Dialect, u: string, a: string, b: string)
    requires FoldStarts(d, u, a + b)
    ensures FoldStarts(d, u, a) && FoldStarts(d, u[|a|..], b)
  {
    forall k | 0 <= k < |b|
      ensures FoldEq(d, u[|a|..][k], b[k])
    {
      assert (a + b)[|a| + k] == b[k];
    }
    forall k | 0 <= k < |a|
      ensures FoldEq(d, u[k], a[k])
    {
      assert (a + b)[k] == a[k];
    }
  }

  lemma FoldStartsJoin(d: Dialect, u: string, a: string, b: string)
    requires FoldStarts(d, u, a) && |a| <= |u| && FoldStarts(d, u[|a|..], b)
    ensures FoldStarts(d, u, a + b)
  {
    forall k | 0 <= k < |a + b|
      ensures FoldEq(d, u[k], (a + b)[k])
    {
      if k >= |a| {
        assert u[|a|..][k - |a|] == u[k];
      }
    }
  }

  /** No character folds onto two different characters of the pattern. */
  lemma FoldDistinct(d: Dialect, c: char, p: char, q: char)
    requires p != q
    requires ('a' <= p <= 'z' || p in ":/.") && ('a' <= q <= 'z' || q in ":/.")
    ensures !(FoldEq(d, c, p) && FoldEq(d, c, q))
  {
  }

  /** The optional groups are forced: when the shape holds with scheme `s`,
      the engine takes exactly `s`. */
  lemma SchemeForced(d: Dialect, u: string, s: Scheme, rest: string)
    requires |rest| >= 1 && rest[0] in "wmy"
    requires FoldStarts(d, u, SchemeText(s) + rest)
    ensures SchemeOf(d, u) == s
  {
    var st := SchemeText(s);
    FoldStartsSplit(d, u, st, rest);
    assert FoldEq(d, u[|st|], rest[0]) by {
      assert (st + rest)[|st|] == rest[0];
    }
    FoldDistinct(d, u[|st|], 'h', rest[0]);
    if |u| > 4 {
      FoldDistinct(d, u[4], ':', 's');
    }
  }

  lemma SubdomainForced(d: Dialect, u: string, w: Subdomain, rest: string)
    requires |rest| >= 1 && rest[0] == 'y'
    requires FoldStarts(d, u, SubdomainText(w) + rest)
    ensures SubdomainOf(d, u) == w
  {
    var wt := SubdomainText(w);
    FoldStartsSplit(d, u, wt, rest);
    assert FoldEq(d, u[|wt|], 'y') by {
      assert (wt + rest)[|wt|] == rest[0];
    }
    FoldDistinct(d, u[|wt|], 'w', 'y');
    FoldDistinct(d, u[|wt|], 'm', 'y');
    FoldDistinct(d, u[0], 'w', 'm');
  }

  lemma HostForced(d: Dialect, u: string, h: Host)
    requires FoldStarts(d, u, HostText(h) + "/")
    ensures HostOf(d, u) == Some(h)
  {
    FoldDistinct(d, u[5], '.', 'b');
  }

  /** A URL spelled exactly as the pattern's groups, followed by a tail of
      line characters, has the shape. */
  lemma ExactShape(d: Dialect, u: string, s: Scheme, w: Subdomain, h: Host, tail: string)
    requires u == SchemeText(s) + SubdomainText(w) + (HostText(h) + "/") + tail
    requires |tail| >= 1 && AllLine(d, tail)
    ensures ShapeWith(d, u, s, w, h)
  {
    var head := SchemeText(s) + SubdomainText(w) + (HostText(h) + "/");
    assert u[..|head|] == head && u[|head|..] == tail;
  }

  /** A shape with fixed groups, read one group at a time. */
  lemma ShapeWithParts(d: Dialect, u: string, s: Scheme, w: Subdomain, h: Host)
    ensures ShapeWith(d, u, s, w, h) <==> ShapeParts(d, u, s, w, h)
  {
    HeadsApart(d, u, SchemeText(s), SubdomainText(w), HostText(h) + "/");
  }

  /** The shape with fixed groups, stated group by group. */
  predicate ShapeParts(d: Dialect, u: string, s: Scheme, w: Subdomain, h: Host) {
    HeadsOneByOne(d, u, SchemeText(s), SubdomainText(w), HostText(h) + "/")
  }

  predicate HeadsOneByOne(d: Dialect, u: string, a: string, b: string, c: string) {
    && FoldStarts(d, u, a)
    && FoldStarts(d, u[|a|..], b + c)
    && TailOk(d, u[|a|..][|b|..][|c|..])
  }

  lemma HeadsApart(d: Dialect, u: string, a: string, b: string, c: string)
    ensures HeadThenTail(d, u, a, b, c) <==> HeadsOneByOne(d, u, a, b, c)
  {
    assert a + b + c == a + (b + c);
    if FoldStarts(d, u, a + b + c) {
      FoldStartsSplit(d, u, a, b + c);
      TailSlices(u, a, b, c);
    }
    if FoldStarts(d, u, a) && |a| <= |u| && FoldStarts(d, u[|a|..], b + c) {
      FoldStartsJoin(d, u, a, b + c);
      TailSlices(u, a, b, c);
    }
  }

  /** Cutting three heads off one after another is cutting them off at once. */
  lemma TailSlices(u: string, a: string, b: string, c: string)
    requires |a| + |b| + |c| <= |u|
    ensures u[|a + (b + c)|..] == u[|a|..][|b|..][|c|..]
  {
  }

  /** Every string of the shape is accepted by the matcher. */
  lemma ShapeSpecMatches(d: Dialect, u: string)
    requires ShapeSpec(d, u)
    ensures MatchesShape(d, u)
  {
    var s, w, h :| ShapeWith(d, u, s, w, h);
    ShapeWithParts(d, u, s, w, h);
    var st, wt, ht := SchemeText(s), SubdomainText(w), HostText(h) + "/";
    assert FoldStarts(d, u, st + (wt + ht)) by {
      FoldStartsJoin(d, u, st, wt + ht);
    }
    SchemeForced(d, u, s, wt + ht);
    var u1 := u[|st|..];
    SubdomainForced(d, u1, w, ht);
    FoldStartsSplit(d, u1, wt, ht);
    HostForced(d, u1[|wt|..], h);
  }

  /** Every string the matcher accepts is of the shape. */
  lemma MatchesShapeSpecOnly(d: Dialect, u: string)
    requires MatchesShape(d, u)
    ensures ShapeSpec(d, u)
  {
    var s := SchemeOf(d, u);
    var u1 := u[|SchemeText(s)|..];
    var w := SubdomainOf(d, u1);
    var u2 := u1[|SubdomainText(w)|..];
    var h := HostOf(d, u2).value;
    FoldStartsJoin(d, u1, SubdomainText(w), HostText(h) + "/");
    ShapeWithParts(d, u, s, w, h);
  }

  /** The group-by-group matcher accepts exactly the strings of the shape. */
  lemma MatchesShapeSpec(d: Dialect, u: string)
    ensures MatchesShape(d, u) <==> ShapeSpec(d, u)
  {
    if ShapeSpec(d, u) {
      ShapeSpecMatches(d, u);
    }
    if MatchesShape(d, u) {
      MatchesShapeSpecOnly(d, u);
    }
  }

  // ---------------------------------------------------------------------------
  // Video-id search

  /** The class `[A-Za-z0-9_-]`. */
  predicate IsIdChar(c: char) {
    'A' <= c <= 'Z' || 'a' <= c <= 'z' || '0' <= c <= '9' || c == '_' || c == '-'
  }

  /** The `{6,}` lower bound on an id. */
  const MinIdLen: nat := 6

  /** A case-sensitive literal prefix, one character class per position. */
  type Prefix = seq<set<char>>

  /** Server and client: `youtu\.be/`. */
  const ShortLink: Prefix := [{'y'}, {'o'}, {'u'}, {'t'}, {'u'}, {'.'}, {'b'}, {'e'}, {'/'}]
  /** Server: bare `v=`. */
  const BareWatch: Prefix := [{'v'}, {'='}]
  /** Server: `/embed/`. */
  const EmbedPath: Prefix := [{'/'}, {'e'}, {'m'}, {'b'}, {'e'}, {'d'}, {'/'}]
  /** Client: `[?&]v=`. */
  const QueryWatch: Prefix := [{'?', '&'}, {'v'}, {'='}]

  predicate PrefixAt(u: string, i: nat, p: Prefix) {
    i + |p| <= |u| && forall k :: 0 <= k < |p| ==> u[i + k] in p[k]
  }

  /** Length of the maximal run of id characters starting at `j`. */
  function IdRunLen(u: string, j: nat): (n: nat)
    requires j <= |u|
    ensures j + n <= |u|
    ensures forall k :: j <= k < j + n ==> IsIdChar(u[k])
    ensures j + n == |u| || !IsIdChar(u[j + n])
    decreases |u| - j
  {
    if j == |u| || !IsIdChar(u[j]) then 0 else 1 + IdRunLen(u, j + 1)
  }

  /** The whole pattern `prefix([A-Za-z0-9_-]{6,})` matches starting at `i`. */
  predicate MatchAt(u: string, i: nat, p: Prefix) {
    PrefixAt(u, i, p) && IdRunLen(u, i + |p|) >= MinIdLen
  }

  /** The captured group of a match at `i`: the maximal id run after the prefix. */
  function IdAt(u: string, i: nat, p: Prefix): string
    requires PrefixAt(u, i, p)
  {
    u[i + |p|..i + |p| + IdRunLen(u, i + |p|)]
  }

  ghost predicate Occurs(u: string, p: Prefix) {
    exists i: nat :: i <= |u| && MatchAt(u, i, p)
  }

  ghost predicate IsLeftmost(u: string, p: Prefix, i: nat) {
    MatchAt(u, i, p) && forall j: nat :: j < i ==> !MatchAt(u, j, p)
  }

  /** `id` is what `re.search` / `String.match` captures for prefix `p`. */
  ghost predicate IsLeftmostId(u: string, p: Prefix, id: string) {
    exists i: nat :: IsLeftmost(u, p, i) && id == IdAt(u, i, p)
  }

  /** First match position at or after `i`. */
  function SearchFrom(u: string, p: Prefix, i: nat): (r: Option<nat>)
    requires i <= |u|
    ensures r.Some? ==> i <= r.value <= |u| && MatchAt(u, r.value, p)
    ensures r.Some? ==> forall j: nat :: i <= j < r.value ==> !MatchAt(u, j, p)
    ensures r.None? ==> forall j: nat :: i <= j ==> !MatchAt(u, j, p)
    decreases |u| - i
  {
    if MatchAt(u, i, p) then Some(i)
    else if i == |u| then None
    else SearchFrom(u, p, i + 1)
  }

  /** The captured id of the leftmost match of `p([A-Za-z0-9_-]{6,})`. */
  function Search(u: string, p: Prefix): (r: Option<string>)
    ensures r.Some? ==> IsLeftmostId(u, p, r.value)
    ensures r.None? <==> !Occurs(u, p)
    ensures r.Some? ==> |r.value| >= MinIdLen && forall k :: 0 <= k < |r.value| ==> IsIdChar(r.value[k])
  {
    match SearchFrom(u, p, 0)
    case Some(i) => Some(IdAt(u, i, p))
    case None => None
  }

  /** Two leftmost matches are the same match. */
  lemma LeftmostUnique(u: string, p: Prefix, id1: string, id2: string)
    requires IsLeftmostId(u, p, id1) && IsLeftmostId(u, p, id2)
    ensures id1 == id2
  {
  }

  /** A prefix match puts one of the class's characters at each position. */
  lemma PrefixChar(u: string, i: nat, p: Prefix, k: nat)
    requires k < |p|
    ensures PrefixAt(u, i, p) ==> u[i + k] in p[k]
  {
  }

  /** A prefix that occurs nowhere gives no match. */
  lemma NoPrefixNoMatch(u: string, p: Prefix)
    requires forall i: nat :: i <= |u| ==> !PrefixAt(u, i, p)
    ensures Search(u, p) == None
  {
  }

  /** No `y` in the text is followed, five places on, by a `.`. */
  predicate NoYoutuDot(u: string) {
    forall i :: 0 <= i && i + 5 < |u| && u[i] == 'y' ==> u[i + 5] != '.'
  }

  /** `youtu.be/` cannot match in a text without `y....` followed by `.`. */
  lemma NoShortLinkWithoutYoutuDot(u: string)
    requires NoYoutuDot(u)
    ensures Search(u, ShortLink) == None
  {
    forall i: nat | i <= |u| ensures !PrefixAt(u, i, ShortLink) {
      PrefixChar(u, i, ShortLink, 0);
      PrefixChar(u, i, ShortLink, 5);
    }
    NoPrefixNoMatch(u, ShortLink);
  }

  /** The first occurrence of a prefix, followed by a maximal run `id` of at
      least six id characters, is what `Search` captures. */
  lemma FirstPrefixMatch(u: string, p: Prefix, i: nat, id: string)
    requires PrefixAt(u, i, p)
    requires forall j: nat :: j < i ==> !PrefixAt(u, j, p)
    requires i + |p| + |id| <= |u| && u[i + |p|..i + |p| + |id|] == id
    requires |id| >= MinIdLen && forall k :: 0 <= k < |id| ==> IsIdChar(id[k])
    requires i + |p| + |id| == |u| || !IsIdChar(u[i + |p| + |id|])
    ensures Search(u, p) == Some(id)
  {
    var j := i + |p|;
    forall k | j <= k < j + |id|
      ensures IsIdChar(u[k])
    {
      assert u[k] == id[k - j];
    }
    IdRunLenIs(u, j, |id|);
    SearchIs(u, p, i, id);
  }

  /** The run length is the one fixed by its three defining facts. */
  lemma IdRunLenIs(u: string, j: nat, n: nat)
    requires j + n <= |u|
    requires forall k :: j <= k < j + n ==> IsIdChar(u[k])
    requires j + n == |u| || !IsIdChar(u[j + n])
    ensures IdRunLen(u, j) == n
  {
  }

  /** `Search` returns the id of a match with no match to its left. */
  lemma SearchIs(u: string, p: Prefix, i: nat, id: string)
    requires MatchAt(u, i, p) && IdAt(u, i, p) == id
    requires forall j: nat :: j < i ==> !MatchAt(u, j, p)
    ensures Search(u, p) == Some(id)
  {
    assert i <= |u|;
    assert IsLeftmostId(u, p, id) by {
      assert IsLeftmost(u, p, i);
    }
    LeftmostUnique(u, p, Search(u, p).value, id);
  }
}

=== FILE: url_relations.dfy ===
/** How the client's URL rules relate to the server's: every URL the client
    dispatches passes server validation, while the server accepts URLs the
    client refuses (embed paths, a `v=` inside another parameter name), the
    id patterns are case-sensitive under a case-insensitive shape, and the two
    searches can pick different ids from the same URL. */
module UrlRelations {
  import opened Outcomes
  import opened UrlGrammar
  import opened ServerUrl
  import opened ClientUrl

  // ---------------------------------------------------------------------------
  // General relations

  /** The JavaScript reading of the shape is the stricter one. */
  lemma ClientShapeImpliesServerShape(url: string)
    requires IsValidYouTubeUrl(url)
    ensures YoutubeRegexMatches(url)
  {
    var s, w, h :| ShapeWith(JavaScript, url, s, w, h);
    JavaScriptHeadIsPython(url, SchemeText(s), SubdomainText(w), HostText(h) + "/");
    assert ShapeWith(Python, url, s, w, h);
  }

  /** Python's folding and `.`/`$` accept everything JavaScript's do. */
  lemma JavaScriptHeadIsPython(url: string, a: string, b: string, c: string)
    requires HeadThenTail(JavaScript, url, a, b, c)
    ensures HeadThenTail(Python, url, a, b, c)
  {
    var head := a + b + c;
    var tail := url[|head|..];
    forall k | 0 <= k < |head|
      ensures FoldEq(Python, url[k], head[k])
    {
      assert FoldEq(JavaScript, url[k], head[k]);
    }
    if |tail| >= 1 && AllLine(JavaScript, tail) {
      assert AllLine(Python, tail);
    }
  }

  /** Every client `[?&]v=` match contains a server `v=` match one position on. */
  lemma QueryWatchIsBareWatch(url: string, i: nat)
    requires MatchAt(url, i, QueryWatch)
    ensures MatchAt(url, i + 1, BareWatch)
  {
    PrefixChar(url, i, QueryWatch, 1);
    PrefixChar(url, i, QueryWatch, 2);
    assert PrefixAt(url, i + 1, BareWatch);
  }

  /** When the client finds an id, so does the server. */
  lemma {:induction false} ClientIdImpliesServerId(url: string)
    requires ExtractVideoId(url).Some?
    ensures ParseVideoId(url).Some?
  {
    if !Occurs(url, ShortLink) {
      var i: nat :| i <= |url| && MatchAt(url, i, QueryWatch);
      QueryWatchIsBareWatch(url, i);
      assert i + 1 <= |url|;
    }
  }

  /** A `youtu.be/` id is the same id on both sides. */
  lemma ShortLinkIdsAgree(url: string)
    requires Occurs(url, ShortLink)
    ensures ExtractVideoId(url) == ParseVideoId(url)
  {
    LeftmostUnique(url, ShortLink, ExtractVideoId(url).value, ParseVideoId(url).value);
  }

  /** A URL that passes both client gates passes server validation, so the
      server's 422 "Invalid YouTube URL" never answers a client request. */
  lemma ClientGatesImplyServerValid(url: string)
    requires IsValidYouTubeUrl(url) && ExtractVideoId(url).Some?
    ensures ValidateYoutubeUrl(url)
  {
    ClientShapeImpliesServerShape(url);
    ClientIdImpliesServerId(url);
  }

  // ---------------------------------------------------------------------------
  // Witnesses of the differences (each URL is a parameter pinned by its
  // precondition, which keeps the solver from unfolding the searches on it)

  /** An embed URL: both shapes accept it, only the server finds an id. */
  lemma EmbedOnlyOnServer(u: string)
    requires u == "youtube.com/embed/abcdef"
    ensures ParseVideoId(u) == Some("abcdef")
    ensures ValidateYoutubeUrl(u)
    ensures IsValidYouTubeUrl(u)
    ensures ExtractVideoId(u).None?
  {
    EmbedSearches(u);
    EmbedShapes(u);
  }

  /** `v=` at the end of another parameter name: the server takes it, the
      client's `[?&]v=` does not. */
  lemma DevParamOnlyOnServer(u: string)
    requires u == "youtube.com/watch?dev=abcdef"
    ensures ParseVideoId(u) == Some("abcdef")
    ensures ExtractVideoId(u).None?
  {
    DevParamSearches(u);
  }

  /** The shape is case-insensitive but the id patterns are not: an upper-case
      short link has the shape on both sides and still fails validation. */
  lemma UpperCaseShortLinkFailsValidation(u: string)
    requires u == "YOUTU.BE/abcdef"
    ensures YoutubeRegexMatches(u)
    ensures IsValidYouTubeUrl(u)
    ensures ParseVideoId(u).None?
    ensures !ValidateYoutubeUrl(u)
  {
    UpperCaseSearches(u);
    UpperCaseShapes(u);
  }

  /** With both `dev=` and `&v=` present the two sides pick different ids:
      the client embeds one video while the server answers for another. */
  lemma IdsDiverge(u: string)
    requires u == "youtube.com/watch?dev=aaaaaa&v=bbbbbb"
    ensures ParseVideoId(u) == Some("aaaaaa")
    ensures ExtractVideoId(u) == Some("bbbbbb")
  {
    DivergeServerSearches(u);
    DivergeClientSearch(u);
  }

  /** Python's case folding lets U+017F (long s) stand for `s` in the scheme;
      JavaScript's does not. */
  lemma LongSOnlyOnServer(u: string)
    requires u == "http\U{017F}://youtu.be/abcdef"
    ensures YoutubeRegexMatches(u)
    ensures !IsValidYouTubeUrl(u)
  {
    LongSServerShape(u);
    LongSClientShape(u);
  }

  /** Python's `$` also matches before a final newline; JavaScript's does not. */
  lemma TrailingNewlineOnlyOnServer(u: string)
    requires u == "youtu.be/abcdef\n"
    ensures YoutubeRegexMatches(u)
    ensures !IsValidYouTubeUrl(u)
  {
    TrailingNewlineServerShape(u);
    TrailingNewlineClientShape(u);
  }

  // ---------------------------------------------------------------------------
  // The searches behind the witnesses, one URL at a time

  lemma EmbedSearches(u: string)
    requires u == "youtube.com/embed/abcdef"
    ensures Search(u, ShortLink) == None
    ensures Search(u, BareWatch) == None
    ensures Search(u, QueryWatch) == None
    ensures Search(u, EmbedPath) == Some("abcdef")
  {
    EmbedNoOtherPrefix(u);
    forall j: nat | j < 11 ensures !PrefixAt(u, j, EmbedPath) {
      PrefixChar(u, j, EmbedPath, 0);
    }
    FirstPrefixMatch(u, EmbedPath, 11, "abcdef");
  }

  lemma EmbedNoOtherPrefix(u: string)
    requires u == "youtube.com/embed/abcdef"
    ensures Search(u, ShortLink) == None
    ensures Search(u, BareWatch) == None
    ensures Search(u, QueryWatch) == None
  {
    forall i: nat | i <= |u| ensures !PrefixAt(u, i, BareWatch) && !PrefixAt(u, i, QueryWatch) {
      PrefixChar(u, i, BareWatch, 0);
      PrefixChar(u, i, QueryWatch, 1);
    }
    NoPrefixNoMatch(u, BareWatch);
    NoPrefixNoMatch(u, QueryWatch);
    assert NoYoutuDot(u);
    NoShortLinkWithoutYoutuDot(u);
  }

  lemma DevParamSearches(u: string)
    requires u == "youtube.com/watch?dev=abcdef"
    ensures Search(u, ShortLink) == None
    ensures Search(u, QueryWatch) == None
    ensures Search(u, BareWatch) == Some("abcdef")
  {
    DevParamNoQuery(u);
    forall j: nat | j < 20 ensures !PrefixAt(u, j, BareWatch) {
      PrefixChar(u, j, BareWatch, 0);
    }
    FirstPrefixMatch(u, BareWatch, 20, "abcdef");
  }

  lemma DevParamNoQuery(u: string)
    requires u == "youtube.com/watch?dev=abcdef"
    ensures Search(u, ShortLink) == None
    ensures Search(u, QueryWatch) == None
  {
    assert NoYoutuDot(u);
    NoShortLinkWithoutYoutuDot(u);
    forall i: nat | i <= |u| ensures !PrefixAt(u, i, QueryWatch) {
      PrefixChar(u, i, QueryWatch, 0);
      PrefixChar(u, i, QueryWatch, 1);
    }
    NoPrefixNoMatch(u, QueryWatch);
  }

  lemma UpperCaseSearches(u: string)
    requires u == "YOUTU.BE/abcdef"
    ensures Search(u, ShortLink) == None
    ensures Search(u, BareWatch) == None
    ensures Search(u, EmbedPath) == None
  {
    forall i: nat | i <= |u|
      ensures !PrefixAt(u, i, ShortLink) && !PrefixAt(u, i, BareWatch) && !PrefixAt(u, i, EmbedPath)
    {
      PrefixChar(u, i, ShortLink, 0);
      PrefixChar(u, i, BareWatch, 0);
      PrefixChar(u, i, EmbedPath, 0);
      PrefixChar(u, i, EmbedPath, 1);
    }
    NoPrefixNoMatch(u, ShortLink);
    NoPrefixNoMatch(u, BareWatch);
    NoPrefixNoMatch(u, EmbedPath);
  }

  lemma DivergeServerSearches(u: string)
    requires u == "youtube.com/watch?dev=aaaaaa&v=bbbbbb"
    ensures Search(u, ShortLink) == None
    ensures Search(u, BareWatch) == Some("aaaaaa")
  {
    assert NoYoutuDot(u);
    NoShortLinkWithoutYoutuDot(u);
    DivergeBareWatch(u);
  }

  lemma DivergeBareWatch(u: string)
    requires u == "youtube.com/watch?dev=aaaaaa&v=bbbbbb"
    ensures Search(u, BareWatch) == Some("aaaaaa")
  {
    forall j: nat | j < 20 ensures !PrefixAt(u, j, BareWatch) {
      PrefixChar(u, j, BareWatch, 0);
    }
    FirstPrefixMatch(u, BareWatch, 20, "aaaaaa");
  }

  lemma DivergeClientSearch(u: string)
    requires u == "youtube.com/watch?dev=aaaaaa&v=bbbbbb"
    ensures Search(u, QueryWatch) == Some("bbbbbb")
  {
    forall j: nat | j < 28 ensures !PrefixAt(u, j, QueryWatch) {
      PrefixChar(u, j, QueryWatch, 0);
      PrefixChar(u, j, QueryWatch, 1);
    }
    FirstPrefixMatch(u, QueryWatch, 28, "bbbbbb");
  }

  // ---------------------------------------------------------------------------
  // The shapes behind the witnesses

  lemma EmbedShapes(u: string)
    requires u == "youtube.com/embed/abcdef"
    ensures YoutubeRegexMatches(u) && IsValidYouTubeUrl(u)
  {
    assert u == "youtube.com/" + "embed/abcdef";
    EmbedParts(u);
  }

  lemma EmbedParts(u: string)
    requires u == "youtube.com/" + "embed/abcdef"
    ensures ShapeWith(JavaScript, u, NoScheme, NoSubdomain, YoutubeCom)
    ensures ShapeWith(Python, u, NoScheme, NoSubdomain, YoutubeCom)
  {
    assert AllLine(JavaScript, "embed/abcdef");
    assert AllLine(Python, "embed/abcdef");
    ExactShape(JavaScript, u, NoScheme, NoSubdomain, YoutubeCom, "embed/abcdef");
    ExactShape(Python, u, NoScheme, NoSubdomain, YoutubeCom, "embed/abcdef");
  }

  lemma UpperCaseShapes(u: string)
    requires u == "YOUTU.BE/abcdef"
    ensures YoutubeRegexMatches(u) && IsValidYouTubeUrl(u)
  {
    assert ShapeWith(Python, u, NoScheme, NoSubdomain, YoutuBe);
    assert ShapeWith(JavaScript, u, NoScheme, NoSubdomain, YoutuBe);
  }

  lemma LongSServerShape(u: string)
    requires u == "http\U{017F}://youtu.be/abcdef"
    ensures YoutubeRegexMatches(u)
  {
    assert ShapeWith(Python, u, Https, NoSubdomain, YoutuBe);
  }

  /** Without the long-s folding no scheme matches, and `http...` is no host. */
  lemma LongSClientShape(u: string)
    requires u == "http\U{017F}://youtu.be/abcdef"
    ensures !IsValidYouTubeUrl(u)
  {
    assert !FoldEq(JavaScript, u[4], 's') && !FoldEq(JavaScript, u[4], ':');
    assert SchemeOf(JavaScript, u) == NoScheme;
    assert !FoldEq(JavaScript, u[0], 'w') && !FoldEq(JavaScript, u[0], 'm');
    assert SubdomainOf(JavaScript, u) == NoSubdomain;
    assert !FoldEq(JavaScript, u[0], 'y');
    assert HostOf(JavaScript, u) == None;
  }

  lemma TrailingNewlineServerShape(u: string)
    requires u == "youtu.be/abcdef\n"
    ensures YoutubeRegexMatches(u)
  {
    assert ShapeWith(Python, u, NoScheme, NoSubdomain, YoutuBe);
  }

  /** JavaScript reaches the same host but its tail may not hold the newline. */
  lemma TrailingNewlineClientShape(u: string)
    requires u == "youtu.be/abcdef\n"
    ensures !IsValidYouTubeUrl(u)
  {
    assert !FoldEq(JavaScript, u[0], 'h');
    assert SchemeOf(JavaScript, u) == NoScheme;
    assert !FoldEq(JavaScript, u[0], 'w') && !FoldEq(JavaScript, u[0], 'm');
    assert SubdomainOf(JavaScript, u) == NoSubdomain;
    assert !FoldEq(JavaScript, u[5], 'b');
    assert FoldStarts(JavaScript, u, "youtu.be/");
    assert HostOf(JavaScript, u) == Some(YoutuBe);
    var t := u[9..];
    assert t[|t| - 1] == '\n';
    assert !AllLine(JavaScript, t);
  }
}
